=== FILE: README.md ===
# Staged products and bulk product settings — a Dafny model

This is an embedded Shopify admin app. It works with a "staged" list of
products, stored as rows of product ids in the app's database. The products
page has a route action that appends submitted ids to that list (see
"Findings" for why no control on the page reaches it). The app then writes
one setting onto every staged product in a single Admin API `metafieldsSet`
mutation: the add-to-cart button label. A stock-notification form posts the
same kind of request to a route whose code is not part of this model. A third
route writes a custom note the same way, but no form in the app posts to it
(see "Left out").

A separate settings page keeps one theme-wide add-to-cart label in the app's
own database. It is saved with find-then-update-or-create.

The model is functional. Each route handler and each piece of client logic
becomes a pure function over immutable data. The database table, the Admin API
and the clock of the browser's fetcher become parameters.

| file | module | models |
|---|---|---|
| common.dfy | `Common` | option type, fetcher state, notices, prefix and subsequence relations |
| text.dfy | `Text` | ASCII `toLowerCase`, `includes`, `split`/`join` on one character |
| form_data.dfy | `FormData` | the browser `FormData`: `append`, `getAll`, `get`, `set` |
| catalog.dfy | `Catalog` | the product nodes the pages query, with the `first:` caps |
| products_page.dfy | `ProductsPage` | app/routes/app.products.tsx: loader, title search, selection reset, staging action, notices |
| metafield_batch.dfy | `MetafieldBatch` | the bulk `metafieldsSet` route, written once |
| api_routes.dfy | `AddToCartTextRoute`, `CustomNoteRoute` | the two routes built on that batch |
| settings_forms.dfy | `SettingsForms` | AddToCartTextForm and StockNotificationForm |
| theme_content.dfy | `ThemeContent` | app/routes/app.settings.tsx and app/routes/app.additional.tsx |
| product_tables.dfy | `ProductTables` | the rows of ProductTable1, ProductTable2 and ProductTable |
| search_product.dfy | `SearchProduct` | the search bar, the delete button and its modal |

## Model

| member | source | states |
|---|---|---|
| `Catalog.Snapshot` | app/routes/app.products.tsx:26-44 | a queried product keeps its id, title and inventory, its first media node (if any) and its first ten metafields (all of them when there are fewer) |
| `Text.Lower` | app/routes/app.products.tsx:199 | lower-casing keeps the length and lowers each character on its own |
| `Text.Split` | app/components/products-page/product-tables/ProductTable2.tsx:28 | split gives at least one part, and no part contains the separator; a string without the separator is its own single part, and one with it splits into two or more |
| `Text.JoinSplit` | app/components/products-page/product-tables/ProductTable2.tsx:28 | joining the parts of a split with the same separator gives back the original string |
| `FormData.Set` | app/components/settings-page/AddToCartTextForm.tsx:43 | after `set`, the name has exactly the one new value, and every other name keeps its values |
| `FormData.GetAllAppendAll` | app/components/settings-page/AddToCartTextForm.tsx:44 | appending values under a name extends that name's `getAll` by exactly those values, in order, and leaves other names alone |
| `ProductsPage.StagedIdVariables` | app/routes/app.products.tsx:96-99 | the query's id list has one entry per staged row, in row order |
| `ProductsPage.ResolveNodes` | app/routes/app.products.tsx:102 | the lookup by ids answers position by position: a node for each id the catalog knows and null for each it does not |
| `ProductsPage.DropNullNodes` | app/routes/app.products.tsx:106-108 | cleaning keeps exactly the non-null nodes |
| `ProductsPage.DropNullNodesConcat` | app/routes/app.products.tsx:107 | the cleaning keeps order: a concatenation is cleaned part by part |
| `ProductsPage.NoNullLeavesNodesAlone` | app/routes/app.products.tsx:106 | with no null present, the nodes pass through one for one, so the `includes(null)` guard changes nothing |
| `ProductsPage.Loader` | app/routes/app.products.tsx:95-117 | an exception gives `{error}` with status 500; otherwise the catalog page is the first 100 products (all when fewer), each as queried; the staged collection is the by-ids answer to the staged rows' ids, in row order, repeats kept, with unknown ids dropped, so a product is in it exactly when some staged row names a product that exists |
| `ProductsPage.FilterByTitle` | app/routes/app.products.tsx:198-200 | the result is a subsequence of the nodes; each node occurs in it as often as in the input if its title matches, and not at all otherwise |
| `ProductsPage.FilterStagedProducts` | app/routes/app.products.tsx:195-202 | an empty term shows the whole collection; otherwise the result keeps the order and each matching node as many times as it is staged, and a node is in it exactly when it is staged and its lower-cased title contains the lower-cased term |
| `ProductsPage.StagedView` | app/routes/app.products.tsx:141-205 | the page renders the staged collection under the current term exactly when the load succeeded; after a loader error the first render throws reading `.nodes` of `undefined` |
| `ProductsPage.LoaderErrorCrashesFirstRender` | app/routes/app.products.tsx:114-116 | a failed load answers `{error}` with status 500, and the page's first render, with an empty term, crashes on it, so the message is never shown |
| `ProductsPage.SuccessfulLoadShowsStaged` | app/routes/app.products.tsx:195-205 | after a successful load the first render shows every staged product the lookup found, in row order |
| `ProductsPage.EmptyTermFilterIsIdentity` | app/routes/app.products.tsx:196-200 | the empty-term early return agrees with what the filter itself would give |
| `ProductsPage.FilterByTitleConcat` | app/routes/app.products.tsx:198-200 | the filter works node by node: filtering a concatenation filters each part |
| `ProductsPage.HandleSearchChange` | app/routes/app.products.tsx:207-210 | a search edit stores the new term and clears the selection, so every selected id is on screen |
| `ProductsPage.SearchChangeDropsVisibleSelection` | app/routes/app.products.tsx:207-210 | the reset is unconditional: an id still displayed under the new term is deselected anyway |
| `ProductsPage.AddProductsFormRoundTrip` | app/routes/app.products.tsx:156-158 | the action's `getAll` returns exactly the ids `handleAddProducts` appended, in order and with repeats |
| `ProductsPage.StagingAction` | app/routes/app.products.tsx:120-135 | on a database error the table is unchanged and the answer is the error with status 500; otherwise `{success: true}`, and the stored id list is the old list followed by the submitted ids |
| `ProductsPage.StageThenReload` | app/routes/app.products.tsx:120-129 | the next load queries the old staged ids followed by exactly the ids submitted |
| `ProductsPage.StagingKeepsDuplicates` | app/routes/app.products.tsx:125-129 | no de-duplication: each id's count in the table grows by the number of times it was submitted |
| `ProductsPage.RestagingAddsSecondRow` | app/routes/app.products.tsx:125-129 | staging an id that is already staged stores a second identical row |
| `ProductsPage.StagingToasts` | app/routes/app.products.tsx:170-184 | `{success: true}` shows exactly the notice "Selected product/s added successfully!"; a non-empty error shows exactly the error notice `Error: <message>`; any other answer shows nothing |
| `ProductsPage.AddProductsClickLoading` | app/routes/app.products.tsx:162-168 | the `addProductsClickLoading` flag is on exactly while the fetcher is submitting or loading (AddProduct, which it is passed to, does not read it) |
| `MetafieldBatch.BuildBatch` | app/routes/api.add-to-cart-text.tsx:12-18 | one input per product id, in order and owned by that id; every input writes the same value under the route's key and type in namespace `custom` |
| `MetafieldBatch.Reconcile` | app/routes/api.add-to-cart-text.tsx:41-55 | the payload passes through exactly when there is no user error; otherwise the answer is `{error}` with status 500, carrying the first user error's message or the exception's message |
| `MetafieldBatch.Action` | app/routes/api.add-to-cart-text.tsx:5-55 | one mutation per request; its owner ids are `getAll('productIds')`; its value is the form value or `''`; the response reconciles the API's answer to that batch |
| `MetafieldBatch.OneMutationPerRequest` | app/routes/api.add-to-cart-text.tsx:39-42 | any number of ids, including none, costs exactly one mutation of that many entries |
| `MetafieldBatch.MissingValueIsSentEmpty` | app/routes/api.add-to-cart-text.tsx:10 | a request without the value field is not refused: every entry is sent with `''` |
| `MetafieldBatch.UserErrorsFailTheRequest` | app/routes/api.add-to-cart-text.tsx:45-46 | any user error fails the whole request with the first message and status 500 |
| `AddToCartTextRoute.Action` | app/routes/api.add-to-cart-text.tsx:9-18 | the batch writes `custom.button_add_to_cart_text` as `single_line_text_field` from field `add-to-cart-name`, once per product id |
| `CustomNoteRoute.Action` | app/routes/api.submit-custom-note-form.tsx:9-18 | the batch writes `custom.custom_note` as `multi_line_text_field` from field `custom-note`, once per product id |
| `SettingsForms.HandleSubmit` | app/components/settings-page/AddToCartTextForm.tsx:40-49 | the submission goes to the form's endpoint; it carries the typed text under the value field, and the product ids are the form's own followed by every staged product in list order |
| `SettingsForms.SubmittedLabelReachesEveryStagedProduct` | app/components/settings-page/AddToCartTextForm.tsx:40-49 | submitting the add-to-cart form sends one mutation that writes the typed text onto exactly the staged products, in order |
| `SettingsForms.ErrorField` | app/components/settings-page/AddToCartTextForm.tsx:51-57 | the inline error is set exactly for a response with a non-empty `error`, and cleared otherwise |
| `SettingsForms.ToastsAsWritten` | app/components/settings-page/AddToCartTextForm.tsx:59-68 | the notice effect as written throws exactly on the `{error}` response |
| `SettingsForms.Toasts` | app/components/settings-page/StockNotificationForm.tsx:57-66 | the corrected notice effect matches the original wherever that did not throw; it shows nothing for `{error}`; success and user-error notices appear exactly for a payload with metafields or user errors |
| `SettingsForms.RejectedBatchCrashesNoticeEffect` | app/components/settings-page/AddToCartTextForm.tsx:60 | a batch the API rejects reaches the form as `{error}`, and the effect as written throws on it |
| `SettingsForms.EveryRouteErrorCrashesAsWritten` | app/components/settings-page/StockNotificationForm.tsx:58 | every error the route can send crashes the effect as written |
| `SettingsForms.UserErrorNoticeUnreachable` | app/components/settings-page/AddToCartTextForm.tsx:64-67 | the user-error notice never fires for an answer the route sends; the first user error shows as the inline error instead |
| `SettingsForms.Edit` | app/components/settings-page/AddToCartTextForm.tsx:94 | typing changes only the text, and the inline error stays |
| `SettingsForms.OnData` | app/components/settings-page/StockNotificationForm.tsx:49-66 | with the corrected notice effect: a response replaces the inline error and appends exactly the corrected notices, so an `{error}` response or no response adds none; a payload clears the error |
| `SettingsForms.OnDataAsWritten` | app/components/settings-page/StockNotificationForm.tsx:49-66 | the two effects as written: the component goes down exactly on an `{error}` response; otherwise the inline error is replaced and the as-written notices are added |
| `SettingsForms.OnDataAgreesWhereAsWrittenSurvives` | app/components/settings-page/AddToCartTextForm.tsx:51-68 | wherever the effects as written do not crash, the corrected `OnData` ends in the same state |
| `SettingsForms.SaveLoading` | app/components/settings-page/StockNotificationForm.tsx:79 | Save spins exactly while the fetcher is not idle |
| `ThemeContent.FindFrom` | app/routes/app.settings.tsx:55-61 | the lookup finds the first record for the fixed store, theme and key at or after the start, or reports that there is none |
| `ThemeContent.FindFirst` | app/routes/app.additional.tsx:46-52 | the first matching record in the table, or none when no record matches |
| `ThemeContent.SaveAction` | app/routes/app.settings.tsx:45-90 | a missing or empty name gives 400 with the required message; a database error gives 500 and leaves the table unchanged; otherwise the first match with a non-empty id is updated in place, changing only its value, or else a new record is appended |
| `ThemeContent.SavePreservesWellFormed` | app/routes/app.settings.tsx:63-84 | with non-empty database ids, saving keeps every id non-empty |
| `ThemeContent.SaveTwiceSameAsOnce` | app/routes/app.additional.tsx:54-76 | saving the same name a second time leaves the table as the first save left it |
| `ThemeContent.EmptyIdRowDefeatsIdempotence` | app/routes/app.settings.tsx:63 | because the id check tests truthiness, a matching record with an empty id makes each save create another record |
| `ThemeContent.PageSubmit` | app/routes/app.settings.tsx:99-104 | the submitted form carries the field's state under `add-to-cart-name` (the text `"undefined"` when the state is `undefined`) and every other field as it was |
| `ThemeContent.TypedNameIsSaved` | app/routes/app.additional.tsx:90-95 | a field state of `''` is refused with the 400 error; any other string becomes the saved value, and the `undefined` state is saved as `"undefined"` |
| `ThemeContent.UntouchedFieldAfterLoaderErrorSavesUndefined` | app/routes/app.additional.tsx:87-95 | after a loader error the field's state is `undefined`; saving it untouched stores the label `"undefined"`, which the next load reads back, and shows the saved notice |
| `ThemeContent.Loader` | app/routes/app.settings.tsx:28-43 | an exception gives `{error}` with status 500; otherwise the page gets the id and value of the first matching record, or `{id: '', value: ''}` when none matches |
| `ThemeContent.SaveThenLoad` | app/routes/app.additional.tsx:19-81 | after a successful save, the loader returns the saved record's id with the name just saved |
| `ThemeContent.InitialText` | app/routes/app.settings.tsx:96 | the field starts with the loaded value, and is undefined on a loader error |
| `ThemeContent.ErrorField` | app/routes/app.settings.tsx:108-114 | the inline error is set exactly for a response with a non-empty `error` |
| `ThemeContent.SavedToasts` | app/routes/app.settings.tsx:116-120 | the saved notice shows exactly when the response is a record with a non-empty id |
| `ThemeContent.EmptyNameShowsRequiredError` | app/routes/app.additional.tsx:41-43 | an empty submission shows the required message inline; there is no notice and the table is unchanged |
| `ThemeContent.SuccessfulSaveShowsNotice` | app/routes/app.additional.tsx:99-111 | a successful save clears the inline error and shows the saved notice |
| `ThemeContent.SettingsSaveLoading` | app/routes/app.settings.tsx:186 | the settings Save spins only while submitting, not while loading |
| `ThemeContent.AdditionalSubmitDisabled` | app/routes/app.additional.tsx:123-128 | Submit is disabled exactly when the fetcher is not idle, which is when the field spins |
| `ProductTables.GidTail` | app/components/products-page/product-tables/ProductTable1.tsx:28 | the product id shown is the id's slash-free suffix, either the whole id or the part after its last `/` |
| `ProductTables.GidTailUnique` | app/components/products-page/ProductTable.tsx:51 | any slash-free suffix that is the whole id or follows a `/` is the shown id |
| `ProductTables.GidTailOfProductId` | app/components/products-page/product-tables/ProductTable2.tsx:28 | a product global id shows its numeric tail |
| `ProductTables.GidTailOfTrailingSlash` | app/components/products-page/ProductTable.tsx:51 | an id ending in `/` shows as empty |
| `ProductTables.StockFlagFields` | app/components/products-page/product-tables/ProductTable1.tsx:29-31 | the filter keeps exactly the metafields with key `is_stock_notification_enabled` in namespace `custom` |
| `ProductTables.StockFlagIsFirstMatch` | app/components/products-page/product-tables/ProductTable1.tsx:29-35 | the flag is on exactly when the first matching metafield holds `"true"` |
| `ProductTables.NoStockFlagFieldMeansOff` | app/components/products-page/product-tables/ProductTable1.tsx:32-35 | with no matching metafield the flag is off |
| `ProductTables.LaterStockFlagsIgnored` | app/components/products-page/product-tables/ProductTable1.tsx:33-34 | matching metafields after the first do not change the flag |
| `ProductTables.FlagPastTenthMetafieldIsInvisible` | app/routes/app.products.tsx:81 | a flag stored beyond the ten metafields queried shows as off |
| `ProductTables.StockBadge` | app/components/products-page/product-tables/ProductTable1.tsx:57-59 | the badge reads `True` with a tone exactly when the flag is on, and `False` with no tone otherwise |
| `ProductTables.ThumbnailAsWritten` | app/components/products-page/product-tables/ProductTable1.tsx:46-47 | the thumbnail as written throws exactly when the first media is not an image; with no media it is empty |
| `ProductTables.ThumbnailOf` | app/components/products-page/product-tables/ProductTable2.tsx:39-40 | the corrected thumbnail matches the original wherever that did not throw; it is the first image's url and alt text, or empty |
| `ProductTables.SnapshotKeepsThumbnail` | app/routes/app.products.tsx:69-78 | `media(first: 1)` loses nothing the thumbnail reads: the queried product has the same thumbnail as the product itself |
| `ProductTables.VideoFirstMediaBreaksThumbnail` | app/components/products-page/ProductTable.tsx:62-63 | a product whose first media is a video breaks the thumbnail as written |
| `ProductTables.SelectedItemsCount` | app/components/products-page/product-tables/ProductTable2.tsx:58-61 | the count is `All` exactly when everything is selected, and otherwise the number of selected ids |
| `ProductTables.Render` | app/components/products-page/product-tables/ProductTable1.tsx:27-72 | one row per node in order, with its id, position and title; a row is selected exactly when its id is selected; the shown id is the id's tail; the thumbnail is the corrected one; the last cell is the flag's badge (`True` with the success tone or `False` with none) for the staged table and the inventory for the catalog table |
| `ProductTables.EmptySelectionChecksNoRow` | app/components/products-page/ProductTable.tsx:57 | with nothing selected, no row is checked and the count reads 0 |
| `SearchProduct.SyncDeleteButton` | app/components/products-page/SearchProduct.tsx:19-25 | delete is enabled exactly when the length is a number greater than zero |
| `SearchProduct.ToggleModal` | app/components/products-page/SearchProduct.tsx:17 | toggling flips the modal and leaves the button alone |
| `SearchProduct.ToggleTwiceRestores` | app/components/products-page/SearchProduct.tsx:17 | two toggles restore the state |
| `SearchProduct.OnAction` | app/components/products-page/SearchProduct.tsx:41-63 | a disabled delete and a closed modal fire nothing; delete opens the modal when enabled, and each modal control closes it |
| `SearchProduct.ClosedAndDisabledStaysPut` | app/components/products-page/SearchProduct.tsx:41 | with the modal closed and delete disabled, no sequence of clicks changes anything |
| `SearchProduct.ProductsPageDeleteNeverEnabled` | app/routes/app.products.tsx:225-229 | the products page does not pass the length the component reads, so delete stays disabled and the modal never opens |
| `SearchProduct.DeletePressOpensModal` | app/components/products-page/SearchProduct.tsx:50-63 | with a positive length, pressing delete opens the modal and any modal control closes it |
| `SearchProduct.SearchEdit` | app/components/products-page/SearchProduct.tsx:14-16 | a search edit reaches the page: the term becomes the text and the selection is cleared |

## Left out

- Reading the session and `authenticate.admin` are not modelled. Each route receives the parsed form and the Admin API as a function from batch to outcome.
- Prisma is modelled as a sequence of records. `findMany` without `orderBy` is taken to return rows in insertion order. `findFirst` scans that order.
- Exceptions from the database or the API are an optional message parameter. The race between `findFirst` and `create` under concurrent saves is not modelled, because the model has no concurrency.
- `Promise.all` in the products loader is modelled as two independent lookups. Their order does not matter to the result.
- React rendering, Polaris components, App Bridge and `console` logging are not modelled. A notice is modelled as a (message, isError) value appended to a list.
- The internals of `useIndexResourceState` are not modelled. The selection is an input, and the page keeps it as a set of ids.
- `Text.Lower` maps ASCII `A`-`Z` only. JavaScript `toLowerCase` also folds non-ASCII letters.
- `SettingsForms.SuccessMessage` builds the success notice text, `${n} product/s ... updated successfully!`, with a decimal rendering of the count. No contract proves its digits.
- The `selectedProductIds` state mirror of `selectedResources` on the products page is not modelled. It only feeds the misnamed SearchProduct prop.
- `handleSubmitFromList`, `handleInputChange`, and the per-product state maps on the products page are not modelled. Nothing on the page renders or uses them.
- The language select on the add-to-cart form is not modelled, because it affects nothing that is submitted.
- The tab strip on the settings page is not modelled. Its buttons (app/routes/app.settings.tsx:173-183) have no `type` and sit inside the form, so a tab click also submits the form and saves the current text, exactly like Save; that submission is `ThemeContent.PageSubmit` followed by `ThemeContent.SaveAction`.
- `SettingsForms.OnData`: composes the corrected notice effect. On an `{error}` response the source's effect throws instead; that behaviour is `SettingsForms.OnDataAsWritten`.
- `ProductTables.Render`: renders the corrected thumbnail `ProductTables.ThumbnailOf`. Where the first media is not an image the source's row throws instead (`ProductTables.ThumbnailAsWritten`).
- The `/api/submit-stock-notification-form` route is not part of this model. StockNotificationForm posts to it, and its answer is assumed to have the same shape as the other batch routes.
- app/components/products-page/AddProduct.tsx is not modelled. It is a CSV-import modal whose every action only closes it (see Findings).
- app/components/settings-page/CustomNoteForm.tsx is not modelled. Its form's submit handler does nothing (`onSubmit={() => {}}`, CustomNoteForm.tsx:30), so nothing in the UI posts to the custom-note route; `CustomNoteRoute.Action` models that route for a form posted to it directly.
- app/root.tsx, the interfaces and tailwind.config.js are not modelled. They are layout, types or configuration.
- The selection-clearing on search, the staging action and the label save are modelled as the code does them. Staging keeps duplicates, and editing the text does not clear the inline error.

## Findings

| source | as written | input that shows it | evidently intended | confidence | as-written member | corrected member |
|---|---|---|---|---|---|---|
| app/components/settings-page/AddToCartTextForm.tsx:60 | the notice effect reads `fetcher.data.metafieldsSet.metafields` for any response, including `{error}`, which has no `metafieldsSet`; StockNotificationForm.tsx:58 does the same | a batch the API rejects with the user error "Value can't be blank": the route answers `{error}` with status 500, and the effect throws a `TypeError` | check the response shape first, and show no notice for `{error}`, whose message is already the inline error | not executed; high, read from the code | `SettingsForms.ToastsAsWritten` | `SettingsForms.Toasts` |
| app/components/products-page/product-tables/ProductTable1.tsx:46-47 | `node.media.edges[0]?.node.image.url` guards only a missing first edge. The query selects `image` only `... on MediaImage`, so a product whose first media is a video gets an empty node, and `.image.url` throws (also ProductTable2.tsx:39-40 and ProductTable.tsx:62-63) | a product whose first media is a video, followed by an image | the thumbnail falls back to `''` when the first media has no image | not executed; medium-high, depends on the API returning an empty object for the unmatched fragment | `ProductTables.ThumbnailAsWritten` | `ProductTables.ThumbnailOf` |

These behaviours are modelled as written and not corrected:

- app/routes/app.products.tsx:226 passes `selectedProductIds` to SearchProduct, which reads `selectedResourcesLength`. The length therefore arrives undefined, and the Delete button stays disabled (`SearchProduct.ProductsPageDeleteNeverEnabled`).
- app/routes/app.products.tsx:236-242 passes `products`, `onAddProducts` and `loading` to AddProduct, which takes only `isOpen` and `toggleModal` (app/components/products-page/AddProduct.tsx:11-16), and whose actions only call `toggleModal` (AddProduct.tsx:30-38). So `handleAddProducts` is never called, and nothing in the page's UI submits to the staging action. `ProductsPage.StagingAction` and `ProductsPage.StageThenReload` model that action for a form posted to it directly.
- After a loader error on app/routes/app.settings.tsx or app/routes/app.additional.tsx, the text field's state starts as `undefined` (app.settings.tsx:96, app.additional.tsx:87) and shows empty. Saving without typing sends the text `"undefined"` (`formData.set` at app.settings.tsx:102), which passes the required check at line 50 and is stored as the label (`ThemeContent.UntouchedFieldAfterLoaderErrorSavesUndefined`).
- app/routes/app.products.tsx has no error display for its loader: on `{error}` there is no `productsByProductIds`, the empty-term memo at line 196 returns `undefined`, and line 205 reads `.nodes` of it during the first render. app/root.tsx has no `ErrorBoundary`, so the page crashes and the 500 message never reaches the operator (`ProductsPage.StagedView`, `ProductsPage.LoaderErrorCrashesFirstRender`).
- The user-error notice in both settings forms cannot fire, because the route folds user errors into `{error}` (`SettingsForms.UserErrorNoticeUnreachable`).

=== FILE: api_routes.dfy ===
/** The `/api/add-to-cart-text` route, app/routes/api.add-to-cart-text.tsx:
    the shared metafield batch for the add-to-cart button label. */
module AddToCartTextRoute {
  import FormData
  import MetafieldBatch

  const SPEC := MetafieldBatch.AttributeSpec("add-to-cart-name", "button_add_to_cart_text", "single_line_text_field")

  /** One mutation; one entry per submitted product id, in order, each owned
      by that id and writing the submitted label (or `''`) as a single-line
      text under `custom.button_add_to_cart_text`. */
  function Action(form: FormData.Form,
                  graphql: seq<MetafieldBatch.MetafieldsSetInput> -> MetafieldBatch.GraphqlOutcome)
    : (t: MetafieldBatch.ActionTrace)
    ensures |t.mutations| == 1
    ensures var batch := t.mutations[0];
            var ids := FormData.GetAll(form, "productIds");
            |batch| == |ids| &&
            (forall i :: 0 <= i < |batch| ==> batch[i].ownerId == ids[i]) &&
            (forall e :: e in batch ==>
              e.key == "button_add_to_cart_text" && e.namespace == "custom" &&
              e.valueType == "single_line_text_field" &&
              e.value == FormData.Get(form, "add-to-cart-name").GetOr(""))
    ensures t.response == MetafieldBatch.Reconcile(graphql(t.mutations[0]))
  {
    var t := MetafieldBatch.Action(SPEC, form, graphql);
    assert forall i :: 0 <= i < |t.mutations[0]| ==>
      t.mutations[0][i].ownerId == MetafieldBatch.OwnerIds(t.mutations[0])[i];
    t
  }
}

/** The `/api/submit-custom-note-form` route,
    app/routes/api.submit-custom-note-form.tsx: the same batch for the
    product's custom note. */
module CustomNoteRoute {
  import FormData
  import MetafieldBatch

  const SPEC := MetafieldBatch.AttributeSpec("custom-note", "custom_note", "multi_line_text_field")

  /** One mutation; one entry per submitted product id, in order, each owned
      by that id and writing the submitted note (or `''`) as a multi-line
      text under `custom.custom_note`. */
  function Action(form: FormData.Form,
                  graphql: seq<MetafieldBatch.MetafieldsSetInput> -> MetafieldBatch.GraphqlOutcome)
    : (t: MetafieldBatch.ActionTrace)
    ensures |t.mutations| == 1
    ensures var batch := t.mutations[0];
            var ids := FormData.GetAll(form, "productIds");
            |batch| == |ids| &&
            (forall i :: 0 <= i < |batch| ==> batch[i].ownerId == ids[i]) &&
            (forall e :: e in batch ==>
              e.key == "custom_note" && e.namespace == "custom" &&
              e.valueType == "multi_line_text_field" &&
              e.value == FormData.Get(form, "custom-note").GetOr(""))
    ensures t.response == MetafieldBatch.Reconcile(graphql(t.mutations[0]))
  {
    var t := MetafieldBatch.Action(SPEC, form, graphql);
    assert forall i :: 0 <= i < |t.mutations[0]| ==>
      t.mutations[0][i].ownerId == MetafieldBatch.OwnerIds(t.mutations[0])[i];
    t
  }
}

=== FILE: catalog.dfy ===
/** The product snapshot the pages display, shaped after the GraphQL
    selections in app/routes/app.products.tsx and the interfaces under
    app/interfaces. */
module Catalog {
  import opened Common


  /** `products(first: 100)`: the size of the one catalog page fetched. */
  const PRODUCTS_PAGE_SIZE := 100
  /** `media(first: 1)`. */
  const MEDIA_PAGE_SIZE := 1
  /** `metafields(first: 10)`. */
  const METAFIELDS_PAGE_SIZE := 10

  datatype Image = Image(url: string, altText: string)

  /** One media node. The query asks for `... on MediaImage { image }`, so a
      video or 3D model comes back as an empty node without `image`. */
  datatype MediaNode = MediaImage(image: Image) | OtherMedia

  /** A metafield as the product query selects it. */
  datatype MetafieldNode = MetafieldNode(namespace: string, key: string, value: string)

  datatype ProductNode = ProductNode(
    id: string,
    title: string,
    totalInventory: int,
    media: seq<MediaNode>,
    metafields: seq<MetafieldNode>)

  function Take<T>(xs: seq<T>, n: nat): (r: seq<T>)
    ensures |r| == if |xs| <= n then |xs| else n
    ensures IsPrefix(r, xs)
  {
    if |xs| <= n then xs else xs[..n]
  }

  /** What the platform sends for a product under the paged selection: the
      first media node and the first ten metafields. */
  function Snapshot(product: ProductNode): (n: ProductNode)
    ensures n.id == product.id && n.title == product.title
    ensures n.totalInventory == product.totalInventory
    ensures IsPrefix(n.media, product.media)
    ensures |n.media| == if |product.media| <= MEDIA_PAGE_SIZE then |product.media| else MEDIA_PAGE_SIZE
    ensures IsPrefix(n.metafields, product.metafields)
    ensures |n.metafields| == if |product.metafields| <= METAFIELDS_PAGE_SIZE then |product.metafields| else METAFIELDS_PAGE_SIZE
  {
    product.(media := Take(product.media, MEDIA_PAGE_SIZE),
             metafields := Take(product.metafields, METAFIELDS_PAGE_SIZE))
  }

  function NodeIds(nodes: seq<ProductNode>): (ids: seq<string>)
    ensures |ids| == |nodes|
    ensures forall i :: 0 <= i < |nodes| ==> ids[i] == nodes[i].id
  {
    seq(|nodes|, i requires 0 <= i < |nodes| => nodes[i].id)
  }
}

=== FILE: common.dfy ===
/** Vocabulary shared by every page: optional values (JavaScript's
    `undefined`/`null`), the lifecycle of a Remix fetcher, toast notices and
    order-preserving sub-sequences. */
module Common {

  /** A value that may be absent: `undefined`, `null` or a missing form field. */
  datatype Option<+T> = None | Some(value: T) {

    /** The value, or `default` when absent (JavaScript's `x || default` for
        values that are never falsy when present). */
    function GetOr(default: T): T
    {
      match this
      case Some(v) => v
      case None => default
    }
  }

  /** The three states a Remix fetcher reports through `fetcher.state`. */
  datatype FetcherState = Idle | Submitting | Loading

  /** `fetcher.state === 'submitting' || fetcher.state === 'loading'`: the
      spinner rule shared by the products page and the settings forms. */
  predicate IsBusy(state: FetcherState)
  {
    state == Submitting || state == Loading
  }

  /** A notice shown through the host bridge's `toast.show(message, {isError})`. */
  datatype Toast = Toast(message: string, isError: bool)

  /** `p` is an initial segment of `xs`. */
  predicate IsPrefix<T(==)>(p: seq<T>, xs: seq<T>)
  {
    |p| <= |xs| && xs[..|p|] == p
  }

  /** `xs` is obtained from `ys` by deleting elements, keeping the order of the
      rest (greedy matching is complete for this relation). */
  predicate IsSubsequence<T(==)>(xs: seq<T>, ys: seq<T>)
    decreases |ys|
  {
    |xs| == 0 ||
    (|ys| > 0 &&
     if xs[0] == ys[0] then IsSubsequence(xs[1..], ys[1..]) else IsSubsequence(xs, ys[1..]))
  }

  /** If `xs` is a sub-sequence of `ys`, so is its tail. */
  lemma {:induction false} SubsequenceDropHead<T>(xs: seq<T>, ys: seq<T>)
    requires |xs| > 0 && IsSubsequence(xs, ys)
    ensures IsSubsequence(xs[1..], ys)
    decreases |ys|, 0
  {
    assert |ys| > 0;
    if xs[0] == ys[0] {
      SubsequenceWeaken(xs[1..], ys[1..], ys[0]);
      assert [ys[0]] + ys[1..] == ys;
    } else {
      SubsequenceDropHead(xs, ys[1..]);
      SubsequenceWeaken(xs[1..], ys[1..], ys[0]);
      assert [ys[0]] + ys[1..] == ys;
    }
  }

  /** Putting one more element in front of `ys` keeps `xs` a sub-sequence of it. */
  lemma {:induction false} SubsequenceWeaken<T>(xs: seq<T>, ys: seq<T>, y: T)
    requires IsSubsequence(xs, ys)
    ensures IsSubsequence(xs, [y] + ys)
    decreases |ys|, 1
  {
    assert ([y] + ys)[1..] == ys;
    if |xs| == 0 {
    } else if xs[0] == y {
      SubsequenceDropHead(xs, ys);
    }
  }

  /** Every sequence is a sub-sequence of itself. */
  lemma {:induction false} SubsequenceReflexive<T>(xs: seq<T>)
    ensures IsSubsequence(xs, xs)
    decreases |xs|
  {
    if |xs| > 0 {
      SubsequenceReflexive(xs[1..]);
    }
  }
}

=== FILE: form_data.dfy ===
/** The browser's `FormData`: an ordered list of (name, value) entries in
    which a name may repeat. Only string values occur in this application. */
module FormData {
  import opened Common

  datatype Entry = Entry(name: string, value: string)

  type Form = seq<Entry>

  /** `formData.append(name, value)`: a new entry at the end. */
  function Append(form: Form, name: string, value: string): Form
  {
    form + [Entry(name, value)]
  }

  /** `values.forEach(v => formData.append(name, v))`. */
  function AppendAll(form: Form, name: string, values: seq<string>): Form
    decreases |values|
  {
    if |values| == 0 then form
    else AppendAll(Append(form, name, values[0]), name, values[1..])
  }

  /** `formData.getAll(name)`: the values of every entry called `name`, in
      entry order. */
  function GetAll(form: Form, name: string): (values: seq<string>)
    ensures |values| <= |form|
    decreases |form|
  {
    if |form| == 0 then []
    else (if form[0].name == name then [form[0].value] else []) + GetAll(form[1..], name)
  }

  /** `formData.get(name)`: the first value under `name`, or `null`. */
  function Get(form: Form, name: string): (r: Option<string>)
    ensures r.None? <==> GetAll(form, name) == []
    ensures r.Some? ==> r.value == GetAll(form, name)[0]
  {
    var all := GetAll(form, name);
    if |all| == 0 then None else Some(all[0])
  }

  /** The entries not called `name`. */
  function Without(form: Form, name: string): (r: Form)
    ensures GetAll(r, name) == []
    ensures forall other {:trigger GetAll(r, other)} :: other != name ==> GetAll(r, other) == GetAll(form, other)
    decreases |form|
  {
    if |form| == 0 then []
    else if form[0].name == name then Without(form[1..], name)
    else [form[0]] + Without(form[1..], name)
  }

  /** `formData.set(name, value)`: the first entry called `name` takes the new
      value and every later one is removed; with no such entry, `value` is
      appended. Either way `name` ends up with exactly one value. */
  function Set(form: Form, name: string, value: string): (r: Form)
    ensures GetAll(r, name) == [value]
    ensures forall other {:trigger GetAll(r, other)} :: other != name ==> GetAll(r, other) == GetAll(form, other)
    decreases |form|
  {
    if |form| == 0 then [Entry(name, value)]
    else if form[0].name == name then [Entry(name, value)] + Without(form[1..], name)
    else [form[0]] + Set(form[1..], name, value)
  }

  lemma {:induction false} GetAllConcat(a: Form, b: Form, name: string)
    ensures GetAll(a + b, name) == GetAll(a, name) + GetAll(b, name)
    decreases |a|
  {
    if |a| == 0 {
      assert a + b == b;
    } else {
      assert (a + b)[0] == a[0];
      assert (a + b)[1..] == a[1..] + b;
      GetAllConcat(a[1..], b, name);
    }
  }

  /** Round trip: what `forEach(append)` puts under `name` comes back from
      `getAll(name)` after what was already there, same values, same order,
      same count; every other name is untouched. */
  lemma {:induction false} GetAllAppendAll(form: Form, name: string, values: seq<string>, asked: string)
    ensures GetAll(AppendAll(form, name, values), asked) ==
            GetAll(form, asked) + (if asked == name then values else [])
    decreases |values|
  {
    if |values| > 0 {
      var next := Append(form, name, values[0]);
      GetAllAppendAll(next, name, values[1..], asked);
      GetAllConcat(form, [Entry(name, values[0])], asked);
      assert GetAll([Entry(name, values[0])], asked) == (if asked == name then [values[0]] else []);
      if asked == name {
        assert [values[0]] + values[1..] == values;
        assert GetAll(form, asked) + [values[0]] + values[1..] == GetAll(form, asked) + values;
      }
    }
  }
}

=== FILE: metafield_batch.dfy ===
/** The bulk metafield write shared by app/routes/api.add-to-cart-text.tsx and
    app/routes/api.submit-custom-note-form.tsx: build one `metafieldsSet`
    input per product id, send them in one mutation, and fold the answer into
    the route's JSON response. The two routes differ only in the form field
    they read and the metafield key and type they write (`AttributeSpec`). */
module MetafieldBatch {
  import opened Common
  import FormData

  const NAMESPACE := "custom"
  /** The form field carrying the product ids. */
  const PRODUCT_IDS_FIELD := "productIds"

  /** Which attribute a route writes. */
  datatype AttributeSpec = AttributeSpec(formField: string, key: string, valueType: string)

  /** One `MetafieldsSetInput`. */
  datatype MetafieldsSetInput = MetafieldsSetInput(
    key: string, namespace: string, value: string, valueType: string, ownerId: string)

  /** A metafield as the mutation's `metafields { ... }` selection returns it. */
  datatype Metafield = Metafield(key: string, namespace: string, value: string,
                                 createdAt: string, updatedAt: string)

  datatype UserError = UserError(field: seq<string>, message: string, code: string)

  /** `data.metafieldsSet` of the mutation's answer. */
  datatype MetafieldsSetPayload = MetafieldsSetPayload(metafields: seq<Metafield>, userErrors: seq<UserError>)

  /** What awaiting `admin.graphql(...)` and `.json()` gave: the payload, or an
      exception (network, GraphQL or parsing failure) with its message. */
  datatype GraphqlOutcome = Answered(payload: MetafieldsSetPayload) | Threw(message: string)

  /** The route's JSON response: `{metafieldsSet}` with status 200, or
      `{error}` with the status it was sent with. */
  datatype ApiResponse =
    | MetafieldsSetOk(metafieldsSet: MetafieldsSetPayload)
    | ApiError(error: string, status: int)

  function OwnerIds(batch: seq<MetafieldsSetInput>): (ids: seq<string>)
    ensures |ids| == |batch|
    ensures forall i :: 0 <= i < |batch| ==> ids[i] == batch[i].ownerId
  {
    seq(|batch|, i requires 0 <= i < |batch| => batch[i].ownerId)
  }

  /** Every entry writes `value` under the spec's key and type in the
      `custom` namespace. */
  predicate SharesAttribute(batch: seq<MetafieldsSetInput>, spec: AttributeSpec, value: string)
  {
    forall e :: e in batch ==>
      e.key == spec.key && e.namespace == NAMESPACE && e.valueType == spec.valueType && e.value == value
  }

  /** `productIds.map(productId => ({key, namespace, value, type, ownerId}))`. */
  function BuildBatch(spec: AttributeSpec, productIds: seq<string>, value: string): (batch: seq<MetafieldsSetInput>)
    ensures OwnerIds(batch) == productIds
    ensures SharesAttribute(batch, spec, value)
  {
    var batch := seq(|productIds|, i requires 0 <= i < |productIds| =>
      MetafieldsSetInput(spec.key, NAMESPACE, value, spec.valueType, productIds[i]));
    assert OwnerIds(batch) == productIds;
    batch
  }

  /** The try/catch around the mutation: any user error is thrown with the
      first error's message and, like any other exception, answered with
      status 500; otherwise the payload is passed through as it came. */
  function Reconcile(outcome: GraphqlOutcome): (r: ApiResponse)
    ensures r.ApiError? ==> r.status == 500
    ensures r.MetafieldsSetOk? <==> outcome.Answered? && |outcome.payload.userErrors| == 0
    ensures r.MetafieldsSetOk? ==> r.metafieldsSet == outcome.payload
    ensures outcome.Answered? && |outcome.payload.userErrors| > 0 ==>
            r.error == outcome.payload.userErrors[0].message
    ensures outcome.Threw? ==> r.error == outcome.message
  {
    match outcome
    case Threw(message) => ApiError(message, 500)
    case Answered(payload) =>
      if |payload.userErrors| > 0 then ApiError(payload.userErrors[0].message, 500)
      else MetafieldsSetOk(payload)
  }

  /** The status code a response goes out with. */
  function Status(r: ApiResponse): int
  {
    match r
    case MetafieldsSetOk(_) => 200
    case ApiError(_, status) => status
  }

  /** What one request did: the mutations it sent, in order, and its response. */
  datatype ActionTrace = ActionTrace(mutations: seq<seq<MetafieldsSetInput>>, response: ApiResponse)

  /** The route's `action`. `graphql` stands for the Admin API: it answers the
      batch it is given. A missing value field defaults to `''` and is sent
      anyway; there is no validation before the mutation. */
  function Action(spec: AttributeSpec, form: FormData.Form,
                  graphql: seq<MetafieldsSetInput> -> GraphqlOutcome): (t: ActionTrace)
    ensures |t.mutations| == 1
    ensures OwnerIds(t.mutations[0]) == FormData.GetAll(form, PRODUCT_IDS_FIELD)
    ensures SharesAttribute(t.mutations[0], spec, FormData.Get(form, spec.formField).GetOr(""))
    ensures t.response == Reconcile(graphql(t.mutations[0]))
  {
    var productIds := FormData.GetAll(form, PRODUCT_IDS_FIELD);
    var value := FormData.Get(form, spec.formField).GetOr("");
    var batch := BuildBatch(spec, productIds, value);
    ActionTrace([batch], Reconcile(graphql(batch)))
  }

  /** The number of ids never changes the number of requests: a thousand ids
      and none both cost one mutation. */
  lemma OneMutationPerRequest(spec: AttributeSpec, ids: seq<string>, value: string,
                              graphql: seq<MetafieldsSetInput> -> GraphqlOutcome)
    requires spec.formField != PRODUCT_IDS_FIELD
    ensures var form := FormData.AppendAll(FormData.Set([], spec.formField, value), PRODUCT_IDS_FIELD, ids);
            var t := Action(spec, form, graphql);
            |t.mutations| == 1 && |t.mutations[0]| == |ids|
  {
    var form := FormData.AppendAll(FormData.Set([], spec.formField, value), PRODUCT_IDS_FIELD, ids);
    FormData.GetAllAppendAll(FormData.Set([], spec.formField, value), PRODUCT_IDS_FIELD, ids, PRODUCT_IDS_FIELD);
    assert FormData.GetAll([], PRODUCT_IDS_FIELD) == [];
    assert FormData.GetAll(FormData.Set([], spec.formField, value), PRODUCT_IDS_FIELD) == [];
    assert OwnerIds(Action(spec, form, graphql).mutations[0]) == FormData.GetAll(form, PRODUCT_IDS_FIELD);
  }

  /** A request without the value field is not rejected: the batch still
      carries one entry per id, each with the empty string as value. */
  lemma MissingValueIsSentEmpty(spec: AttributeSpec, form: FormData.Form,
                                graphql: seq<MetafieldsSetInput> -> GraphqlOutcome)
    requires FormData.GetAll(form, spec.formField) == []
    ensures var t := Action(spec, form, graphql);
            |t.mutations[0]| == |FormData.GetAll(form, PRODUCT_IDS_FIELD)| &&
            forall e :: e in t.mutations[0] ==> e.value == ""
  {
  }

  /** Any user error turns the whole request into an error carrying the first
      message; there is no per-entry attribution and no payload. */
  lemma UserErrorsFailTheRequest(payload: MetafieldsSetPayload)
    requires |payload.userErrors| > 0
    ensures Reconcile(Answered(payload)) == ApiError(payload.userErrors[0].message, 500)
    ensures Status(Reconcile(Answered(payload))) == 500
  {
  }
}

=== FILE: product_tables.dfy ===
/** The row derivations of the three index tables:
    app/components/products-page/product-tables/ProductTable1.tsx (the staged
    collection, with the stock-notification badge),
    app/components/products-page/product-tables/ProductTable2.tsx (a catalog
    page, with the inventory) and app/components/products-page/ProductTable.tsx
    (a catalog page, with an inert delete button). */
module ProductTables {
  import opened Common
  import opened Text
  import opened Catalog

  const STOCK_FLAG_KEY := "is_stock_notification_enabled"
  const STOCK_FLAG_NAMESPACE := "custom"

  // ------------------------------------------------------------ product id

  /** `node.id.split('/').pop() || ''`: the text after the last `/` of a
      global id (the whole id when it has none). The `|| ''` fallback only
      maps `''` to itself: `pop()` on a split is never undefined. */
  function GidTail(id: string): (tail: string)
    ensures '/' !in tail
    ensures |tail| <= |id| && id[|id| - |tail|..] == tail
    ensures |tail| == |id| || id[|id| - |tail| - 1] == '/'
  {
    LastPartIsTail(id, '/');
    var parts := Split(id, '/');
    var popped := parts[|parts| - 1];
    if popped == "" then "" else popped
  }

  /** The three properties of `GidTail` pin it down: any slash-free suffix
      that is the whole id or follows a `/` is the tail. */
  lemma GidTailUnique(id: string, t: string)
    requires '/' !in t
    requires |t| <= |id| && id[|id| - |t|..] == t
    requires |t| == |id| || id[|id| - |t| - 1] == '/'
    ensures t == GidTail(id)
  {
  }

  /** On a platform id: the numeric tail. */
  lemma GidTailOfProductId()
    ensures GidTail("gid://shopify/Product/8123") == "8123"
  {
    var id := "gid://shopify/Product/8123";
    assert id[22..] == "8123";
    assert id[21] == '/';
    GidTailUnique(id, "8123");
  }

  /** An id ending in `/` has the empty tail. */
  lemma GidTailOfTrailingSlash()
    ensures GidTail("gid://shopify/Product/") == ""
  {
    var id := "gid://shopify/Product/";
    assert id[21] == '/';
    GidTailUnique(id, "");
  }

  // ---------------------------------------------------- stock notification

  predicate IsStockFlagField(m: MetafieldNode)
  {
    m.key == STOCK_FLAG_KEY && m.namespace == STOCK_FLAG_NAMESPACE
  }

  /** The `filter` on key and namespace. */
  function StockFlagFields(ms: seq<MetafieldNode>): (r: seq<MetafieldNode>)
    ensures forall m :: m in r <==> m in ms && IsStockFlagField(m)
    decreases |ms|
  {
    if |ms| == 0 then []
    else
      assert ms == [ms[0]] + ms[1..];
      (if IsStockFlagField(ms[0]) then [ms[0]] else []) + StockFlagFields(ms[1..])
  }

  /** `filtered.length > 0 && filtered[0].node.value == 'true'`. */
  predicate StockNotificationEnabled(ms: seq<MetafieldNode>)
  {
    var fields := StockFlagFields(ms);
    |fields| > 0 && fields[0].value == "true"
  }

  /** The flag is decided by the first matching metafield alone: it is on
      exactly when that one holds the string `"true"`. */
  lemma {:induction false} StockFlagIsFirstMatch(ms: seq<MetafieldNode>, i: nat)
    requires i < |ms| && IsStockFlagField(ms[i])
    requires forall j :: 0 <= j < i ==> !IsStockFlagField(ms[j])
    ensures StockNotificationEnabled(ms) <==> ms[i].value == "true"
    ensures StockFlagFields(ms)[0] == ms[i]
    decreases i
  {
    if i > 0 {
      StockFlagIsFirstMatch(ms[1..], i - 1);
    }
  }

  /** No matching metafield: the flag is off. */
  lemma {:induction false} NoStockFlagFieldMeansOff(ms: seq<MetafieldNode>)
    requires forall j :: 0 <= j < |ms| ==> !IsStockFlagField(ms[j])
    ensures StockFlagFields(ms) == []
    ensures !StockNotificationEnabled(ms)
    decreases |ms|
  {
    if |ms| > 0 {
      NoStockFlagFieldMeansOff(ms[1..]);
    }
  }

  /** Once a matching metafield is present, later ones change nothing, even
      if they say otherwise. */
  lemma LaterStockFlagsIgnored(ms: seq<MetafieldNode>, later: seq<MetafieldNode>, i: nat)
    requires i < |ms| && IsStockFlagField(ms[i])
    requires forall j :: 0 <= j < i ==> !IsStockFlagField(ms[j])
    ensures StockNotificationEnabled(ms + later) == StockNotificationEnabled(ms)
  {
    StockFlagIsFirstMatch(ms, i);
    assert (ms + later)[i] == ms[i];
    StockFlagIsFirstMatch(ms + later, i);
  }

  /** The loader asks for ten metafields only: a flag stored after the tenth
      metafield never reaches the table, which then shows the flag off. */
  lemma FlagPastTenthMetafieldIsInvisible(p: ProductNode)
    requires forall j :: 0 <= j < |p.metafields| && j < METAFIELDS_PAGE_SIZE ==> !IsStockFlagField(p.metafields[j])
    ensures !StockNotificationEnabled(Snapshot(p).metafields)
  {
    var ms := Snapshot(p).metafields;
    assert forall j :: 0 <= j < |ms| ==> ms[j] == p.metafields[j];
    NoStockFlagFieldMeansOff(ms);
  }

  datatype Badge = Badge(text: string, tone: Option<string>)

  /** The badge: `True` with the success tone, or `False` with none. */
  function StockBadge(enabled: bool): (b: Badge)
    ensures b.text == "True" <==> enabled
    ensures b.text == "False" <==> !enabled
    ensures b.tone.Some? <==> enabled
  {
    if enabled then Badge("True", Some("success")) else Badge("False", None)
  }

  // ------------------------------------------------------------- thumbnail

  datatype Thumbnail = Thumbnail(source: string, alt: string)

  /** The thumbnail as written: `media.edges[0]?.node.image.url || ''`. The
      `?.` guards only a missing first edge; a first media that is not an
      image has no `image`, and reading its `url` throws (`None`). */
  function ThumbnailAsWritten(media: seq<MediaNode>): (t: Option<Thumbnail>)
    ensures t.None? <==> |media| > 0 && media[0].OtherMedia?
    ensures |media| == 0 ==> t == Some(Thumbnail("", ""))
  {
    if |media| == 0 then Some(Thumbnail("", ""))
    else match media[0]
      case OtherMedia => None
      case MediaImage(image) => Some(Thumbnail(image.url, image.altText))
  }

  /** The thumbnail with the optional read extended to the image: both
      fields fall back to `''` when there is no first image. */
  function ThumbnailOf(media: seq<MediaNode>): (t: Thumbnail)
    ensures ThumbnailAsWritten(media).Some? ==> ThumbnailAsWritten(media).value == t
    ensures |media| == 0 || media[0].OtherMedia? ==> t == Thumbnail("", "")
    ensures |media| > 0 && media[0].MediaImage? ==> t == Thumbnail(media[0].image.url, media[0].image.altText)
  {
    if |media| > 0 && media[0].MediaImage? then Thumbnail(media[0].image.url, media[0].image.altText)
    else Thumbnail("", "")
  }

  /** The thumbnail survives the query: `media(first: 1)` keeps the first
      media, which is all the thumbnail looks at. */
  lemma SnapshotKeepsThumbnail(p: ProductNode)
    ensures ThumbnailOf(Snapshot(p).media) == ThumbnailOf(p.media)
    ensures ThumbnailAsWritten(Snapshot(p).media) == ThumbnailAsWritten(p.media)
  {
    if |p.media| > 0 {
      assert Snapshot(p).media[0] == p.media[0];
    }
  }

  /** The discrepancy on a concrete product whose only media is a video. */
  lemma VideoFirstMediaBreaksThumbnail()
    ensures ThumbnailAsWritten([OtherMedia, MediaImage(Image("https://cdn/x.png", "x"))]).None?
    ensures ThumbnailOf([OtherMedia]) == Thumbnail("", "")
  {
  }

  // ------------------------------------------------------------------ rows

  /** The three tables share every column but the last. */
  datatype TableKind = StagedProducts | CatalogProducts | CatalogWithDelete

  datatype LastCell = StockCell(badge: Badge) | InventoryCell(totalInventory: int) | DeleteCell

  datatype Row = Row(id: string, position: nat, selected: bool, thumbnail: Thumbnail,
                     productId: string, title: string, last: LastCell)

  function LastCellOf(kind: TableKind, node: ProductNode): LastCell
  {
    match kind
    case StagedProducts => StockCell(StockBadge(StockNotificationEnabled(node.metafields)))
    case CatalogProducts => InventoryCell(node.totalInventory)
    case CatalogWithDelete => DeleteCell
  }

  function RowOf(kind: TableKind, node: ProductNode, position: nat, selectedResources: seq<string>): Row
  {
    Row(node.id, position, node.id in selectedResources, ThumbnailOf(node.media),
        GidTail(node.id), node.title, LastCellOf(kind, node))
  }

  /** `selectedItemsCount`: `'All'` or the number of selected ids. */
  datatype SelectedCount = All | Count(n: nat)

  function SelectedItemsCount(allResourcesSelected: bool, selectedResources: seq<string>): (c: SelectedCount)
    ensures c.All? <==> allResourcesSelected
    ensures c.Count? ==> c.n == |selectedResources|
  {
    if allResourcesSelected then All else Count(|selectedResources|)
  }

  datatype IndexTableView = IndexTableView(itemCount: nat, selectedItemsCount: SelectedCount, rows: seq<Row>)

  /** The rendered table: one row per node, in order, each selected exactly
      when its id is among the selected resources. */
  function Render(kind: TableKind, nodes: seq<ProductNode>, selectedResources: seq<string>,
                  allResourcesSelected: bool): (v: IndexTableView)
    ensures v.itemCount == |nodes| && |v.rows| == |nodes|
    ensures v.selectedItemsCount == SelectedItemsCount(allResourcesSelected, selectedResources)
    ensures forall i :: 0 <= i < |nodes| ==>
      v.rows[i].id == nodes[i].id && v.rows[i].position == i && v.rows[i].title == nodes[i].title &&
      (v.rows[i].selected <==> nodes[i].id in selectedResources) &&
      v.rows[i].productId == GidTail(nodes[i].id) &&
      v.rows[i].thumbnail == ThumbnailOf(nodes[i].media)
    ensures kind == StagedProducts ==> forall i :: 0 <= i < |nodes| ==>
      v.rows[i].last == StockCell(StockBadge(StockNotificationEnabled(nodes[i].metafields)))
    ensures kind == CatalogProducts ==> forall i :: 0 <= i < |nodes| ==>
      v.rows[i].last == InventoryCell(nodes[i].totalInventory)
  {
    IndexTableView(|nodes|, SelectedItemsCount(allResourcesSelected, selectedResources),
                   seq(|nodes|, i requires 0 <= i < |nodes| => RowOf(kind, nodes[i], i, selectedResources)))
  }

  /** With nothing selected no row is checked and the count reads 0 (unless
      the hook reports everything selected). */
  lemma EmptySelectionChecksNoRow(kind: TableKind, nodes: seq<ProductNode>)
    ensures var v := Render(kind, nodes, [], false);
            v.selectedItemsCount == Count(0) && forall i :: 0 <= i < |v.rows| ==> !v.rows[i].selected
  {
  }
}

=== FILE: products_page.dfy ===
/** The staged-products page, app/routes/app.products.tsx: its loader, the
    search filter over the staged collection, the selection reset on search,
    the staging form and action, and the notices and spinner that follow. */
module ProductsPage {
  import opened Common
  import opened Text
  import opened Catalog
  import FormData

  /** The form field `handleAddProducts` fills and the action reads. */
  const SELECTED_PRODUCT_IDS := "selectedProductIds"

  const ADDED_MESSAGE := "Selected product/s added successfully!"

  /** A row of the `stagedProducts` table, as `findMany({select: {productId}})`
      returns it. */
  datatype StagedRow = StagedRow(productId: string)

  // ---------------------------------------------------------------- loader

  /** The `$productIds` variable of the by-ids query: the stored product ids,
      one per row, in the order the table returns them. */
  function StagedIdVariables(rows: seq<StagedRow>): (ids: seq<string>)
    ensures |ids| == |rows|
    ensures forall i :: 0 <= i < |rows| ==> ids[i] == rows[i].productId
  {
    seq(|rows|, i requires 0 <= i < |rows| => rows[i].productId)
  }

  /** `nodes(ids:)` answers null for an id that no longer names a product;
      `catalog` is the platform's product set keyed by id. */
  function ResolveNodes(ids: seq<string>, catalog: map<string, ProductNode>): (nodes: seq<Option<ProductNode>>)
    ensures |nodes| == |ids|
    ensures forall i :: 0 <= i < |ids| ==> (nodes[i].Some? <==> ids[i] in catalog)
    ensures forall i :: 0 <= i < |ids| && ids[i] in catalog ==> nodes[i] == Some(Snapshot(catalog[ids[i]]))
  {
    seq(|ids|, i requires 0 <= i < |ids| =>
      if ids[i] in catalog then Some(Snapshot(catalog[ids[i]])) else None)
  }

  /** The null cleanup of the by-ids answer: the non-null nodes, in order.
      (The source filters only when `includes(null)` holds; without a null the
      filter would change nothing, see `NoNullLeavesNodesAlone`.) */
  function DropNullNodes(nodes: seq<Option<ProductNode>>): (r: seq<ProductNode>)
    ensures |r| <= |nodes|
    ensures forall n :: n in r <==> Some(n) in nodes
    decreases |nodes|
  {
    if |nodes| == 0 then []
    else
      assert nodes == [nodes[0]] + nodes[1..];
      (if nodes[0].Some? then [nodes[0].value] else []) + DropNullNodes(nodes[1..])
  }

  /** Order is kept: cleaning a concatenation cleans each part in place. */
  lemma {:induction false} DropNullNodesConcat(a: seq<Option<ProductNode>>, b: seq<Option<ProductNode>>)
    ensures DropNullNodes(a + b) == DropNullNodes(a) + DropNullNodes(b)
    decreases |a|
  {
    if |a| == 0 {
      assert a + b == b;
    } else {
      assert (a + b)[0] == a[0];
      assert (a + b)[1..] == a[1..] + b;
      DropNullNodesConcat(a[1..], b);
    }
  }

  /** With no null in the answer the nodes come through one for one. */
  lemma {:induction false} NoNullLeavesNodesAlone(nodes: seq<Option<ProductNode>>)
    requires forall i :: 0 <= i < |nodes| ==> nodes[i].Some?
    ensures |DropNullNodes(nodes)| == |nodes|
    ensures forall i :: 0 <= i < |nodes| ==> DropNullNodes(nodes)[i] == nodes[i].value
    decreases |nodes|
  {
    if |nodes| > 0 {
      NoNullLeavesNodesAlone(nodes[1..]);
      assert DropNullNodes(nodes) == [nodes[0].value] + DropNullNodes(nodes[1..]);
    }
  }

  /** What the loader hands the page: one catalog page and the staged
      collection, or the caught error with status 500. */
  datatype LoaderData =
    | PageData(products: seq<ProductNode>, staged: seq<ProductNode>)
    | LoaderError(error: string, status: int)

  /** The loader. `catalogOrder` is the platform's product listing, `catalog`
      the same products keyed by id, `failure` the message of an exception
      thrown by the database or the API. */
  function Loader(table: seq<StagedRow>, catalogOrder: seq<ProductNode>,
                  catalog: map<string, ProductNode>, failure: Option<string>): (r: LoaderData)
    ensures failure.Some? ==> r == LoaderError(failure.value, 500)
    ensures failure.None? ==> r.PageData?
    ensures r.PageData? ==>
      |r.products| == (if |catalogOrder| <= PRODUCTS_PAGE_SIZE then |catalogOrder| else PRODUCTS_PAGE_SIZE) &&
      forall i :: 0 <= i < |r.products| ==> r.products[i] == Snapshot(catalogOrder[i])
    ensures r.PageData? ==> r.staged == DropNullNodes(ResolveNodes(StagedIdVariables(table), catalog))
    ensures r.PageData? ==> |r.staged| <= |table|
    ensures r.PageData? ==>
      forall i :: 0 <= i < |table| && table[i].productId in catalog ==>
        Snapshot(catalog[table[i].productId]) in r.staged
    ensures r.PageData? ==>
      forall n :: n in r.staged ==>
        exists i :: 0 <= i < |table| && table[i].productId in catalog && n == Snapshot(catalog[table[i].productId])
  {
    if failure.Some? then LoaderError(failure.value, 500)
    else
      var ids := StagedIdVariables(table);
      var page := Take(catalogOrder, PRODUCTS_PAGE_SIZE);
      var resolved := ResolveNodes(ids, catalog);
      var staged := DropNullNodes(resolved);
      assert forall n :: n in staged ==> Some(n) in resolved;
      assert forall i :: 0 <= i < |table| && table[i].productId in catalog ==>
        resolved[i] == Some(Snapshot(catalog[table[i].productId]));
      PageData(seq(|page|, i requires 0 <= i < |page| => Snapshot(page[i])), staged)
  }

  // ---------------------------------------------------------------- search

  /** A node passes the search when its lower-cased title contains the
      lower-cased term. */
  predicate TitleMatches(node: ProductNode, term: string)
  {
    Contains(Lower(node.title), Lower(term))
  }

  /** `nodes.filter(node => node.title.toLowerCase().includes(term.toLowerCase()))`. */
  function FilterByTitle(nodes: seq<ProductNode>, term: string): (r: seq<ProductNode>)
    ensures IsSubsequence(r, nodes)
    ensures forall n :: multiset(r)[n] == if TitleMatches(n, term) then multiset(nodes)[n] else 0
    decreases |nodes|
  {
    if |nodes| == 0 then []
    else
      var rest := FilterByTitle(nodes[1..], term);
      assert nodes == [nodes[0]] + nodes[1..];
      if TitleMatches(nodes[0], term) then
        assert ([nodes[0]] + rest)[1..] == rest;
        [nodes[0]] + rest
      else
        SubsequenceWeaken(rest, nodes[1..], nodes[0]);
        rest
  }

  /** `filteredProductsByProductIds`: the staged collection itself for an
      empty term, otherwise the nodes whose title matches, in their order. */
  function FilterStagedProducts(nodes: seq<ProductNode>, search: string): (r: seq<ProductNode>)
    ensures search == "" ==> r == nodes
    ensures IsSubsequence(r, nodes)
    ensures forall n :: multiset(r)[n] == if TitleMatches(n, search) then multiset(nodes)[n] else 0
    ensures forall n :: n in r <==> n in nodes && TitleMatches(n, search)
  {
    if search == "" then
      SubsequenceReflexive(nodes);
      EmptyTermMatchesAll(nodes);
      assert forall n :: multiset(nodes)[n] > 0 ==> n in nodes;
      nodes
    else
      var r := FilterByTitle(nodes, search);
      assert forall n :: n in r <==> multiset(r)[n] > 0;
      r
  }

  /** Every title contains the empty term. */
  lemma EmptyTermMatchesAll(nodes: seq<ProductNode>)
    ensures forall n :: n in nodes ==> TitleMatches(n, "")
  {
    forall n | n in nodes
      ensures TitleMatches(n, "")
    {
      assert Lower("") == "";
      assert IsPrefix("", Lower(n.title));
    }
  }

  /** The early return for an empty term is only a shortcut: the filter on
      its own would return the collection unchanged. */
  lemma {:induction false} EmptyTermFilterIsIdentity(nodes: seq<ProductNode>)
    ensures FilterByTitle(nodes, "") == nodes
    decreases |nodes|
  {
    if |nodes| > 0 {
      EmptyTermMatchesAll(nodes);
      EmptyTermFilterIsIdentity(nodes[1..]);
      assert [nodes[0]] + nodes[1..] == nodes;
    }
  }

  /** The filter is a projection applied node by node: filtering a
      concatenation filters each part and keeps them in order. */
  lemma {:induction false} FilterByTitleConcat(a: seq<ProductNode>, b: seq<ProductNode>, term: string)
    ensures FilterByTitle(a + b, term) == FilterByTitle(a, term) + FilterByTitle(b, term)
    decreases |a|
  {
    if |a| == 0 {
      assert a + b == b;
    } else {
      assert (a + b)[0] == a[0];
      assert (a + b)[1..] == a[1..] + b;
      FilterByTitleConcat(a[1..], b, term);
    }
  }

  /** `filteredProductsByProductIds` as the first render reads it. After a
      loader error there is no `productsByProductIds`: with an empty term the
      memo hands back `undefined`, with any other term it reads `.nodes` of
      `undefined`, and in both cases the page throws before the error can be
      shown. `None` stands for that crash. */
  function StagedView(data: LoaderData, search: string): (v: Option<seq<ProductNode>>)
    ensures v.None? <==> data.LoaderError?
    ensures data.PageData? ==> v == Some(FilterStagedProducts(data.staged, search))
  {
    match data
    case LoaderError(_, _) => None
    case PageData(_, staged) => Some(FilterStagedProducts(staged, search))
  }

  /** A failed load never reaches the operator: the loader answers `{error}`
      with status 500, and the page's first render, whose term is empty,
      throws on it. */
  lemma LoaderErrorCrashesFirstRender(table: seq<StagedRow>, catalogOrder: seq<ProductNode>,
                                      catalog: map<string, ProductNode>, message: string)
    ensures Loader(table, catalogOrder, catalog, Some(message)) == LoaderError(message, 500)
    ensures StagedView(Loader(table, catalogOrder, catalog, Some(message)), "").None?
  {
  }

  /** A successful load renders: the first render shows every staged node
      the by-ids lookup found, in row order. */
  lemma SuccessfulLoadShowsStaged(table: seq<StagedRow>, catalogOrder: seq<ProductNode>,
                                  catalog: map<string, ProductNode>)
    ensures StagedView(Loader(table, catalogOrder, catalog, None), "") ==
            Some(DropNullNodes(ResolveNodes(StagedIdVariables(table), catalog)))
  {
  }

  // ------------------------------------------------------------- selection

  /** The page state this model keeps: the search term and the selection
      (`selectedResources` of the resource-state hook, as a set of ids). */
  datatype PageState = PageState(search: string, selection: set<string>)

  /** The ids of the rows on screen for `staged` under the current term. */
  function DisplayedIds(st: PageState, staged: seq<ProductNode>): seq<string>
  {
    NodeIds(FilterStagedProducts(staged, st.search))
  }

  /** Every selected id names a row on screen. */
  predicate SelectionInView(st: PageState, staged: seq<ProductNode>)
  {
    forall id :: id in st.selection ==> id in DisplayedIds(st, staged)
  }

  /** `handleSearchChange`: store the new term and clear the selection. */
  function HandleSearchChange(st: PageState, newValue: string): (st': PageState)
    ensures st'.search == newValue
    ensures st'.selection == {}
    ensures forall staged :: SelectionInView(st', staged)
  {
    PageState(newValue, {})
  }

  /** The reset is unconditional: an id that was selected and is still on
      screen under the new term is dropped from the selection all the same. */
  lemma SearchChangeDropsVisibleSelection(st: PageState, staged: seq<ProductNode>, newValue: string, id: string)
    requires id in st.selection
    requires id in NodeIds(FilterStagedProducts(staged, newValue))
    ensures var st' := HandleSearchChange(st, newValue);
            id in DisplayedIds(st', staged) && id !in st'.selection
  {
  }

  // --------------------------------------------------------------- staging

  /** `handleAddProducts`: one `selectedProductIds` entry per id, in order. */
  function AddProductsForm(selectedProductIds: seq<string>): FormData.Form
  {
    FormData.AppendAll([], SELECTED_PRODUCT_IDS, selectedProductIds)
  }

  /** Round trip of the staging form: `getAll` returns exactly the ids
      appended, in the same order and with the same count. */
  lemma AddProductsFormRoundTrip(ids: seq<string>)
    ensures FormData.GetAll(AddProductsForm(ids), SELECTED_PRODUCT_IDS) == ids
  {
    FormData.GetAllAppendAll([], SELECTED_PRODUCT_IDS, ids, SELECTED_PRODUCT_IDS);
  }

  datatype StagingResponse = StagingSuccess | StagingError(error: string, status: int)

  datatype StagingOutcome = StagingOutcome(table: seq<StagedRow>, response: StagingResponse)

  /** The page's `action`: `createMany` with one row per submitted id, in
      order, duplicates kept. `dbFailure` is the message of an exception from
      the database; `createMany` then writes nothing. */
  function StagingAction(table: seq<StagedRow>, form: FormData.Form, dbFailure: Option<string>): (out: StagingOutcome)
    ensures dbFailure.Some? ==> out.table == table && out.response == StagingError(dbFailure.value, 500)
    ensures dbFailure.None? ==> out.response == StagingSuccess
    ensures dbFailure.None? ==>
      StagedIdVariables(out.table) == StagedIdVariables(table) + FormData.GetAll(form, SELECTED_PRODUCT_IDS)
  {
    var ids := FormData.GetAll(form, SELECTED_PRODUCT_IDS);
    if dbFailure.Some? then StagingOutcome(table, StagingError(dbFailure.value, 500))
    else
      var rows := seq(|ids|, i requires 0 <= i < |ids| => StagedRow(ids[i]));
      assert StagedIdVariables(table + rows) == StagedIdVariables(table) + ids;
      StagingOutcome(table + rows, StagingSuccess)
  }

  /** Staging then reloading: the next loader's `$productIds` is the old list
      followed by exactly the ids the operator submitted. */
  lemma StageThenReload(table: seq<StagedRow>, ids: seq<string>)
    ensures var out := StagingAction(table, AddProductsForm(ids), None);
            StagedIdVariables(out.table) == StagedIdVariables(table) + ids
  {
    AddProductsFormRoundTrip(ids);
  }

  /** No de-duplication: each id occurs in the table as many times as before
      plus the number of times it was submitted. */
  lemma StagingKeepsDuplicates(table: seq<StagedRow>, ids: seq<string>, id: string)
    ensures var out := StagingAction(table, AddProductsForm(ids), None);
            multiset(StagedIdVariables(out.table))[id] ==
            multiset(StagedIdVariables(table))[id] + multiset(ids)[id]
  {
    StageThenReload(table, ids);
  }

  /** A concrete consequence: staging an already staged id adds a second row. */
  lemma RestagingAddsSecondRow()
    ensures var out := StagingAction([StagedRow("A")], AddProductsForm(["A"]), None);
            |out.table| == 2 && out.table[0] == out.table[1]
  {
    StageThenReload([StagedRow("A")], ["A"]);
    var out := StagingAction([StagedRow("A")], AddProductsForm(["A"]), None);
    assert StagedIdVariables(out.table) == ["A", "A"];
  }

  /** The two notice effects on `fetcher.data`: a success notice for
      `{success: true}`, an error notice for a non-empty `error`. */
  function StagingToasts(data: Option<StagingResponse>): (toasts: seq<Toast>)
    ensures |toasts| <= 1
    ensures (|toasts| == 1 && !toasts[0].isError) <==> data == Some(StagingSuccess)
    ensures (|toasts| == 1 && toasts[0].isError) <==>
            data.Some? && data.value.StagingError? && data.value.error != ""
    ensures data == Some(StagingSuccess) ==> toasts == [Toast(ADDED_MESSAGE, false)]
    ensures data.Some? && data.value.StagingError? && data.value.error != "" ==>
            toasts == [Toast("Error: " + data.value.error, true)]
  {
    (if data == Some(StagingSuccess) then [Toast(ADDED_MESSAGE, false)] else []) +
    (if data.Some? && data.value.StagingError? && data.value.error != ""
     then [Toast("Error: " + data.value.error, true)] else [])
  }

  /** `addProductsClickLoading`: true exactly while a request is in flight. */
  function AddProductsClickLoading(state: FetcherState): (loading: bool)
    ensures loading <==> state != Idle
  {
    IsBusy(state)
  }
}

=== FILE: search_product.dfy ===
/** The search bar with its delete button and confirmation modal,
    app/components/products-page/SearchProduct.tsx, and how the products
    page wires it. */
module SearchProduct {
  import opened Common
  import ProductsPage

  /** `active` is the modal's open flag, `deleteDisabled` the button's. */
  datatype SearchBox = SearchBox(active: bool, deleteDisabled: bool)

  /** On mount: modal closed, delete disabled. */
  const Initial := SearchBox(false, true)

  /** The effect on `selectedResourcesLength`: delete is enabled exactly
      when the length is a number above zero (`undefined > 0` is false). */
  function SyncDeleteButton(box: SearchBox, selectedResourcesLength: Option<int>): (box': SearchBox)
    ensures box'.active == box.active
    ensures !box'.deleteDisabled <==> selectedResourcesLength.Some? && selectedResourcesLength.value > 0
  {
    box.(deleteDisabled := !(selectedResourcesLength.Some? && selectedResourcesLength.value > 0))
  }

  /** `toggleModal`. */
  function ToggleModal(box: SearchBox): (box': SearchBox)
    ensures box'.active == !box.active && box'.deleteDisabled == box.deleteDisabled
  {
    box.(active := !box.active)
  }

  lemma ToggleTwiceRestores(box: SearchBox)
    ensures ToggleModal(ToggleModal(box)) == box
  {
  }

  /** What the operator can do: press delete, or use one of the modal's three
      controls (close, discard, continue editing), all wired to `toggleModal`. */
  datatype UiAction = PressDelete | CloseModal | DiscardChanges | ContinueEditing

  /** A disabled button and a closed modal fire nothing; every control that
      does fire toggles the modal. */
  function OnAction(box: SearchBox, a: UiAction): (box': SearchBox)
    ensures box'.deleteDisabled == box.deleteDisabled
    ensures a == PressDelete && !box.deleteDisabled ==> box'.active == !box.active
    ensures a != PressDelete && box.active ==> !box'.active
    ensures a == PressDelete && box.deleteDisabled ==> box' == box
    ensures a != PressDelete && !box.active ==> box' == box
  {
    match a
    case PressDelete => if box.deleteDisabled then box else ToggleModal(box)
    case _ => if box.active then ToggleModal(box) else box
  }

  function Run(box: SearchBox, actions: seq<UiAction>): SearchBox
    decreases |actions|
  {
    if |actions| == 0 then box else Run(OnAction(box, actions[0]), actions[1..])
  }

  /** With the modal closed and delete disabled, no sequence of clicks
      changes anything: only delete opens the modal. */
  lemma {:induction false} ClosedAndDisabledStaysPut(box: SearchBox, actions: seq<UiAction>)
    requires box.deleteDisabled && !box.active
    ensures Run(box, actions) == box
    decreases |actions|
  {
    if |actions| > 0 {
      ClosedAndDisabledStaysPut(OnAction(box, actions[0]), actions[1..]);
    }
  }

  /** The products page passes `selectedProductIds`, not the
      `selectedResourcesLength` this component reads, so the length arrives
      as `undefined`. */
  const LengthPassedByProductsPage: Option<int> := None

  /** Consequence of that wiring: on the products page the delete button is
      disabled whatever is selected, and no sequence of clicks opens the modal. */
  lemma ProductsPageDeleteNeverEnabled(actions: seq<UiAction>)
    ensures SyncDeleteButton(Initial, LengthPassedByProductsPage).deleteDisabled
    ensures !Run(SyncDeleteButton(Initial, LengthPassedByProductsPage), actions).active
  {
    ClosedAndDisabledStaysPut(SyncDeleteButton(Initial, LengthPassedByProductsPage), actions);
  }

  /** With a positive length the button works: one press opens the modal and
      any modal control closes it again. */
  lemma DeletePressOpensModal(n: int, close: UiAction)
    requires n > 0 && close != PressDelete
    ensures var box := SyncDeleteButton(Initial, Some(n));
            Run(box, [PressDelete]).active && !Run(box, [PressDelete, close]).active
  {
    var box := SyncDeleteButton(Initial, Some(n));
    var afterPress := OnAction(box, PressDelete);
    assert afterPress.active;
    assert Run(box, [PressDelete]) == Run(afterPress, []);
    assert [PressDelete, close][1..] == [close];
    assert Run(box, [PressDelete, close]) == Run(afterPress, [close]);
    assert Run(afterPress, [close]) == Run(OnAction(afterPress, close), []);
  }

  /** A search edit is handed to the page's `handleSearchChange` as typed: the
      page's term becomes the new text and its selection is cleared. */
  function SearchEdit(page: ProductsPage.PageState, newValue: string): (page': ProductsPage.PageState)
    ensures page'.search == newValue
    ensures page'.selection == {}
  {
    ProductsPage.HandleSearchChange(page, newValue)
  }
}

=== FILE: settings_forms.dfy ===
/** The two bulk settings forms,
    app/components/settings-page/AddToCartTextForm.tsx and
    app/components/settings-page/StockNotificationForm.tsx. They are the same
    component with a different field name, endpoint and notice text: a text
    input submitted together with the id of every staged product, then an
    inline error and notices derived from the fetcher's response. */
module SettingsForms {
  import opened Common
  import opened Text
  import opened Catalog
  import FormData
  import MetafieldBatch
  import AddToCartTextRoute

  datatype SettingsForm = AddToCartText | StockNotification

  /** The form field the text goes under. */
  function ValueField(f: SettingsForm): string
  {
    match f
    case AddToCartText => "add-to-cart-name"
    case StockNotification => "stock-notification-text"
  }

  /** The route the form posts to (the stock-notification route is not part
      of this model). */
  function Endpoint(f: SettingsForm): string
  {
    match f
    case AddToCartText => "/api/add-to-cart-text"
    case StockNotification => "/api/submit-stock-notification-form"
  }

  /** `${count} product/s ... updated successfully!`. */
  function SuccessMessage(f: SettingsForm, count: nat): string
  {
    var subject := match f
      case AddToCartText => "add to cart name"
      case StockNotification => "stock notification";
    NatToString(count) + " product/s " + subject + " updated successfully!"
  }

  datatype Submission = Submission(endpoint: string, form: FormData.Form)

  /** `handleSubmit`: the form's own fields, the text set under the value
      field, then every staged node's id appended under `productIds` in list
      order. The operator's selection plays no part: the form submits the
      whole staged collection. */
  function HandleSubmit(f: SettingsForm, formFields: FormData.Form, text: string,
                        staged: seq<ProductNode>): (s: Submission)
    ensures s.endpoint == Endpoint(f)
    ensures FormData.Get(s.form, ValueField(f)) == Some(text)
    ensures FormData.GetAll(s.form, MetafieldBatch.PRODUCT_IDS_FIELD) ==
            FormData.GetAll(formFields, MetafieldBatch.PRODUCT_IDS_FIELD) + NodeIds(staged)
  {
    var withText := FormData.Set(formFields, ValueField(f), text);
    var form := FormData.AppendAll(withText, MetafieldBatch.PRODUCT_IDS_FIELD, NodeIds(staged));
    FormData.GetAllAppendAll(withText, MetafieldBatch.PRODUCT_IDS_FIELD, NodeIds(staged), ValueField(f));
    FormData.GetAllAppendAll(withText, MetafieldBatch.PRODUCT_IDS_FIELD, NodeIds(staged), MetafieldBatch.PRODUCT_IDS_FIELD);
    Submission(Endpoint(f), form)
  }

  /** From the button to the batch: when the form's own fields carry no
      product ids, the add-to-cart route writes the typed label onto every
      staged product, one entry each, in list order. */
  lemma SubmittedLabelReachesEveryStagedProduct(
    formFields: FormData.Form, text: string, staged: seq<ProductNode>,
    graphql: seq<MetafieldBatch.MetafieldsSetInput> -> MetafieldBatch.GraphqlOutcome)
    requires FormData.GetAll(formFields, MetafieldBatch.PRODUCT_IDS_FIELD) == []
    ensures var t := AddToCartTextRoute.Action(HandleSubmit(AddToCartText, formFields, text, staged).form, graphql);
            |t.mutations| == 1 &&
            MetafieldBatch.OwnerIds(t.mutations[0]) == NodeIds(staged) &&
            forall e :: e in t.mutations[0] ==> e.value == text
  {
    var s := HandleSubmit(AddToCartText, formFields, text, staged);
    assert FormData.GetAll(s.form, "productIds") == NodeIds(staged);
    var t := AddToCartTextRoute.Action(s.form, graphql);
    assert MetafieldBatch.OwnerIds(t.mutations[0]) == NodeIds(staged);
  }

  /** The inline error: the response's `error` when it is a non-empty
      string, cleared for any other response. */
  function ErrorField(data: Option<MetafieldBatch.ApiResponse>): (e: Option<string>)
    ensures e.Some? <==> data.Some? && data.value.ApiError? && data.value.error != ""
    ensures e.Some? ==> e.value == data.value.error
  {
    match data
    case Some(ApiError(error, _)) => if error != "" then Some(error) else None
    case _ => None
  }

  /** The notices for a `metafieldsSet` payload: the success notice with the
      number of metafields written, then the first user error. */
  function PayloadToasts(f: SettingsForm, p: MetafieldBatch.MetafieldsSetPayload): seq<Toast>
  {
    (if |p.metafields| > 0 then [Toast(SuccessMessage(f, |p.metafields|), false)] else []) +
    (if |p.userErrors| > 0 then [Toast(p.userErrors[0].message, true)] else [])
  }

  /** The outcome of the notice effect: the notices shown, or a `TypeError`
      thrown out of the effect, which takes the component down. */
  datatype EffectResult = Shown(toasts: seq<Toast>) | Crashed

  /** The notice effect as written: it reads `fetcher.data.metafieldsSet`
      for any present response, so the `{error}` shape, which has no
      `metafieldsSet`, makes `.metafields` a read of `undefined`. */
  function ToastsAsWritten(f: SettingsForm, data: Option<MetafieldBatch.ApiResponse>): (r: EffectResult)
    ensures r.Crashed? <==> data.Some? && data.value.ApiError?
  {
    match data
    case None => Shown([])
    case Some(ApiError(_, _)) => Crashed
    case Some(MetafieldsSetOk(p)) => Shown(PayloadToasts(f, p))
  }

  /** The notice effect with the shape checked first: an `{error}` response
      yields no notice (its message is in the inline error), a payload the
      same notices as before. */
  function Toasts(f: SettingsForm, data: Option<MetafieldBatch.ApiResponse>): (toasts: seq<Toast>)
    ensures ToastsAsWritten(f, data).Shown? ==> ToastsAsWritten(f, data).toasts == toasts
    ensures data.None? || data.value.ApiError? ==> toasts == []
    ensures forall t :: t in toasts && !t.isError ==>
      data.Some? && data.value.MetafieldsSetOk? && |data.value.metafieldsSet.metafields| > 0 &&
      t.message == SuccessMessage(f, |data.value.metafieldsSet.metafields|)
    ensures data.Some? && data.value.MetafieldsSetOk? && |data.value.metafieldsSet.metafields| > 0 ==>
      Toast(SuccessMessage(f, |data.value.metafieldsSet.metafields|), false) in toasts
    ensures forall t :: t in toasts && t.isError ==>
      data.Some? && data.value.MetafieldsSetOk? && |data.value.metafieldsSet.userErrors| > 0 &&
      t.message == data.value.metafieldsSet.userErrors[0].message
    ensures data.Some? && data.value.MetafieldsSetOk? && |data.value.metafieldsSet.userErrors| > 0 ==>
      Toast(data.value.metafieldsSet.userErrors[0].message, true) in toasts
  {
    match data
    case Some(MetafieldsSetOk(p)) => PayloadToasts(f, p)
    case _ => []
  }

  /** The discrepancy, on a concrete input: the add-to-cart route answers a
      rejected batch with `{error}`, and the notice effect as written throws on
      that answer. */
  lemma RejectedBatchCrashesNoticeEffect()
    ensures var payload := MetafieldBatch.MetafieldsSetPayload(
              [], [MetafieldBatch.UserError(["value"], "Value can't be blank", "BLANK")]);
            var response := MetafieldBatch.Reconcile(MetafieldBatch.Answered(payload));
            response == MetafieldBatch.ApiError("Value can't be blank", 500) &&
            ToastsAsWritten(AddToCartText, Some(response)) == Crashed
  {
  }

  /** Every error the route can send, user error or exception, crashes the
      effect as written. */
  lemma EveryRouteErrorCrashesAsWritten(f: SettingsForm, outcome: MetafieldBatch.GraphqlOutcome)
    requires MetafieldBatch.Reconcile(outcome).ApiError?
    ensures ToastsAsWritten(f, Some(MetafieldBatch.Reconcile(outcome))) == Crashed
  {
  }

  /** The route folds user errors into `{error}`, so the user-error notice
      cannot fire for any answer the route sends; the first user error
      reaches the operator through the inline error instead. */
  lemma UserErrorNoticeUnreachable(f: SettingsForm, outcome: MetafieldBatch.GraphqlOutcome)
    ensures forall t :: t in Toasts(f, Some(MetafieldBatch.Reconcile(outcome))) ==> !t.isError
    ensures outcome.Answered? && |outcome.payload.userErrors| > 0 &&
            outcome.payload.userErrors[0].message != "" ==>
            ErrorField(Some(MetafieldBatch.Reconcile(outcome))) == Some(outcome.payload.userErrors[0].message)
  {
  }

  /** What the form keeps: the text typed, the inline error, the notices shown. */
  datatype FormState = FormState(text: string, error: Option<string>, toasts: seq<Toast>)

  /** Typing changes the text only; the inline error stays until the next
      response. */
  function Edit(st: FormState, value: string): (st': FormState)
    ensures st'.text == value && st'.error == st.error && st'.toasts == st.toasts
  {
    st.(text := value)
  }

  /** The two effects on a new `fetcher.data`, with the checked notice effect. */
  function OnData(f: SettingsForm, st: FormState, data: Option<MetafieldBatch.ApiResponse>): (st': FormState)
    ensures st'.text == st.text
    ensures st'.error == ErrorField(data)
    ensures st'.toasts == st.toasts + Toasts(f, data)
    ensures data.None? || data.value.ApiError? ==> st'.toasts == st.toasts
    ensures data.Some? && data.value.MetafieldsSetOk? ==> st'.error.None?
  {
    FormState(st.text, ErrorField(data), st.toasts + Toasts(f, data))
  }

  /** The two effects as written: the error effect runs first and sets the
      inline error, then the notice effect throws on the `{error}` shape and
      the component goes down (`None`). On any other response the form
      ends where the corrected `OnData` leaves it. */
  function OnDataAsWritten(f: SettingsForm, st: FormState, data: Option<MetafieldBatch.ApiResponse>): (r: Option<FormState>)
    ensures r.None? <==> data.Some? && data.value.ApiError?
    ensures r.Some? ==> r.value.text == st.text && r.value.error == ErrorField(data) &&
                        r.value.toasts == st.toasts + ToastsAsWritten(f, data).toasts
  {
    var afterError := st.(error := ErrorField(data));
    match ToastsAsWritten(f, data)
    case Crashed => None
    case Shown(toasts) => Some(afterError.(toasts := st.toasts + toasts))
  }

  /** The correction changes nothing except where the original crashed. */
  lemma OnDataAgreesWhereAsWrittenSurvives(f: SettingsForm, st: FormState, data: Option<MetafieldBatch.ApiResponse>)
    ensures OnDataAsWritten(f, st, data).Some? ==> OnDataAsWritten(f, st, data).value == OnData(f, st, data)
    ensures OnDataAsWritten(f, st, data).None? ==> OnData(f, st, data).error == ErrorField(data)
  {
  }

  /** The Save button's spinner: on exactly while a request is in flight. */
  function SaveLoading(state: FetcherState): (loading: bool)
    ensures loading <==> state != Idle
  {
    IsBusy(state)
  }
}

=== FILE: text.dfy ===
/** The string operations the pages call: lower-casing, substring search and
    `split` on a one-character separator, with `Join` as its inverse. */
module Text {
  import opened Common

  predicate IsUpper(c: char)
  {
    'A' <= c <= 'Z'
  }

  /** ASCII-only `toLowerCase`: letters A-Z map to a-z, every other character
      is left alone (full Unicode case mapping is not modelled). */
  function LowerChar(c: char): char
  {
    if IsUpper(c) then (c as int + 32) as char else c
  }

  function Lower(s: string): (r: string)
    ensures |r| == |s|
    ensures forall i :: 0 <= i < |s| ==> r[i] == LowerChar(s[i])
  {
    seq(|s|, i requires 0 <= i < |s| => LowerChar(s[i]))
  }

  /** JavaScript's `s.includes(sub)`: `sub` occurs in `s` at some offset. */
  predicate Contains(s: string, sub: string)
    decreases |s|
  {
    IsPrefix(sub, s) || (|s| > 0 && Contains(s[1..], sub))
  }

  /** `s.split(sep)` for a one-character separator: the maximal runs between
      separators, so n separators give n + 1 parts, empty runs included. */
  function Split(s: string, sep: char): (parts: seq<string>)
    ensures |parts| >= 1
    ensures forall k :: 0 <= k < |parts| ==> sep !in parts[k]
    ensures sep !in s ==> parts == [s]
    ensures sep in s ==> |parts| >= 2
    decreases |s|
  {
    if |s| == 0 then [""]
    else
      var rest := Split(s[1..], sep);
      assert s == [s[0]] + s[1..];
      if s[0] == sep then [""] + rest
      else [[s[0]] + rest[0]] + rest[1..]
  }

  /** `parts.join(sep)`. */
  function Join(parts: seq<string>, sep: char): string
    requires |parts| >= 1
    decreases |parts|
  {
    if |parts| == 1 then parts[0] else parts[0] + [sep] + Join(parts[1..], sep)
  }

  /** Splitting loses nothing: joining the parts back gives the original string. */
  lemma {:induction false} JoinSplit(s: string, sep: char)
    ensures Join(Split(s, sep), sep) == s
    decreases |s|
  {
    if |s| > 0 {
      var t := s[1..];
      var rest := Split(t, sep);
      JoinSplit(t, sep);
      assert s == [s[0]] + t;
      if s[0] == sep {
        var parts := [""] + rest;
        assert Split(s, sep) == parts;
        assert parts[1..] == rest;
        assert Join(parts, sep) == "" + [sep] + Join(rest, sep);
      } else if |rest| == 1 {
        assert Split(s, sep) == [[s[0]] + rest[0]];
      } else {
        var parts := [[s[0]] + rest[0]] + rest[1..];
        assert Split(s, sep) == parts;
        assert parts[1..] == rest[1..];
        JoinCons(rest, sep);
        assert Join(parts, sep) == [s[0]] + rest[0] + [sep] + Join(rest[1..], sep);
      }
    }
  }

  lemma JoinCons(parts: seq<string>, sep: char)
    requires |parts| >= 2
    ensures Join(parts, sep) == parts[0] + [sep] + Join(parts[1..], sep)
  {
  }

  /** The last part of a split is the text after the last separator: it is a
      suffix of `s`, and it is either all of `s` or preceded by `sep`. */
  lemma {:induction false} LastPartIsTail(s: string, sep: char)
    ensures var parts := Split(s, sep);
            var last := parts[|parts| - 1];
            |last| <= |s| && s[|s| - |last|..] == last &&
            (|last| == |s| || s[|s| - |last| - 1] == sep)
    decreases |s|
  {
    if |s| > 0 {
      var rest := Split(s[1..], sep);
      var t := s[1..];
      LastPartIsTail(t, sep);
      var last := rest[|rest| - 1];
      assert t[|t| - |last|..] == last;
      assert s[|s| - |last|..] == t[|t| - |last|..];
      if s[0] == sep {
        assert Split(s, sep) == [""] + rest;
        assert Split(s, sep)[|Split(s, sep)| - 1] == last;
        if |last| < |t| {
          assert s[|s| - |last| - 1] == t[|t| - |last| - 1];
        }
      } else if |rest| == 1 {
        assert sep !in t;
        assert rest == [t];
        assert Split(s, sep) == [[s[0]] + t];
        assert [s[0]] + t == s;
      } else {
        assert Split(s, sep) == [[s[0]] + rest[0]] + rest[1..];
        assert Split(s, sep)[|Split(s, sep)| - 1] == last;
        // The last part cannot be all of `t`: then `t` would hold no
        // separator and `rest` would be the single part `[t]`.
        assert |last| < |t|;
        assert s[|s| - |last| - 1] == t[|t| - |last| - 1];
      }
    }
  }

  /** Decimal rendering of a count, as a template literal `${n}` prints it. */
  function NatToString(n: nat): (s: string)
    ensures |s| >= 1
    ensures forall i :: 0 <= i < |s| ==> '0' <= s[i] <= '9'
    decreases n
  {
    var last := ('0' as int + n % 10) as char;
    if n < 10 then [last] else NatToString(n / 10) + [last]
  }
}

=== FILE: theme_content.dfy ===
/** The theme custom-content pages, app/routes/app.settings.tsx and
    app/routes/app.additional.tsx. Both define the same loader and action
    (app/routes/app.additional.tsx:19-81 repeats app/routes/app.settings.tsx:28-90):
    the add-to-cart label of one fixed store and theme, read with
    `findFirst` and saved with find-then-update-or-create. */
module ThemeContent {
  import opened Common
  import FormData

  const STORE := "quickstart-3e2e3242"
  const THEME_ID := "137013952605"
  const KEY := "add_to_cart_button_text"
  const NAME_FIELD := "add-to-cart-name"
  const REQUIRED_MESSAGE := "Add to cart name is required"
  const SAVED_MESSAGE := "Add to cart name updated successfully!"

  /** A `shopifyStoreThemeCustomContent` row. */
  datatype ContentRecord = ContentRecord(id: string, store: string, themeId: string, key: string, value: string)

  /** The table, in the order `findFirst` scans it. */
  type Table = seq<ContentRecord>

  predicate Matches(r: ContentRecord, store: string, themeId: string, key: string)
  {
    r.store == store && r.themeId == themeId && r.key == key
  }

  /** The lookup every loader and action makes. */
  predicate IsLabelRecord(r: ContentRecord)
  {
    Matches(r, STORE, THEME_ID, KEY)
  }

  /** `findFirst({where: {store, themeId, key}})` from position `from` on. */
  function FindFrom(db: Table, from: nat): (found: Option<nat>)
    requires from <= |db|
    ensures found.Some? ==> from <= found.value < |db| && IsLabelRecord(db[found.value])
    ensures found.Some? ==> forall j :: from <= j < found.value ==> !IsLabelRecord(db[j])
    ensures found.None? ==> forall j :: from <= j < |db| ==> !IsLabelRecord(db[j])
    decreases |db| - from
  {
    if from == |db| then None
    else if IsLabelRecord(db[from]) then Some(from)
    else FindFrom(db, from + 1)
  }

  /** The first label record, if any. */
  function FindFirst(db: Table): (found: Option<nat>)
    ensures found.Some? ==> found.value < |db| && IsLabelRecord(db[found.value])
    ensures found.Some? ==> forall j :: 0 <= j < found.value ==> !IsLabelRecord(db[j])
    ensures found.None? ==> forall j :: 0 <= j < |db| ==> !IsLabelRecord(db[j])
  {
    FindFrom(db, 0)
  }

  /** `!formData.get('add-to-cart-name')`: the field is absent or empty. */
  predicate NameMissing(form: FormData.Form)
  {
    var name := FormData.Get(form, NAME_FIELD);
    name.None? || name.value == ""
  }

  /** The action's JSON answer: the saved row, or `{error}` with a status. */
  datatype ContentResponse = Saved(record: ContentRecord) | ContentError(error: string, status: int)

  datatype SaveOutcome = SaveOutcome(db: Table, response: ContentResponse)

  /** The action. `freshId` is the id the database gives a created row;
      `failure` the message of an exception from the database, which leaves
      the table as it was. A found row with an empty id fails the truthiness
      test and leads to a create, as in the source. */
  function SaveAction(db: Table, form: FormData.Form, freshId: string, failure: Option<string>): (out: SaveOutcome)
    ensures NameMissing(form) ==> out == SaveOutcome(db, ContentError(REQUIRED_MESSAGE, 400))
    ensures !NameMissing(form) && failure.Some? ==>
            out == SaveOutcome(db, ContentError(failure.value, 500))
    ensures !NameMissing(form) && failure.None? ==>
            out.response.Saved? && IsLabelRecord(out.response.record) &&
            out.response.record.value == FormData.Get(form, NAME_FIELD).value
    ensures !NameMissing(form) && failure.None? && FindFirst(db).Some? && db[FindFirst(db).value].id != "" ==>
            var i := FindFirst(db).value;
            |out.db| == |db| &&
            out.db[i] == db[i].(value := FormData.Get(form, NAME_FIELD).value) &&
            out.response.record == out.db[i] &&
            forall j :: 0 <= j < |db| && j != i ==> out.db[j] == db[j]
    ensures !NameMissing(form) && failure.None? && (FindFirst(db).None? || db[FindFirst(db).value].id == "") ==>
            out.db == db + [ContentRecord(freshId, STORE, THEME_ID, KEY, FormData.Get(form, NAME_FIELD).value)] &&
            out.response == Saved(out.db[|db|])
  {
    if NameMissing(form) then SaveOutcome(db, ContentError(REQUIRED_MESSAGE, 400))
    else if failure.Some? then SaveOutcome(db, ContentError(failure.value, 500))
    else
      var name := FormData.Get(form, NAME_FIELD).value;
      var found := FindFirst(db);
      if found.Some? && db[found.value].id != "" then
        var updated := db[found.value].(value := name);
        SaveOutcome(db[found.value := updated], Saved(updated))
      else
        var created := ContentRecord(freshId, STORE, THEME_ID, KEY, name);
        SaveOutcome(db + [created], Saved(created))
  }

  /** The database never hands out an empty id. */
  predicate WellFormed(db: Table)
  {
    forall j :: 0 <= j < |db| ==> db[j].id != ""
  }

  /** Saving keeps the table well formed. */
  lemma SavePreservesWellFormed(db: Table, form: FormData.Form, freshId: string, failure: Option<string>)
    requires WellFormed(db) && freshId != ""
    ensures WellFormed(SaveAction(db, form, freshId, failure).db)
  {
  }

  /** Changing values only leaves the first label record where it was. */
  lemma FindFirstIgnoresValues(db: Table, db': Table)
    requires |db| == |db'|
    requires forall j :: 0 <= j < |db| ==> IsLabelRecord(db[j]) == IsLabelRecord(db'[j])
    ensures FindFirst(db) == FindFirst(db')
  {
  }

  /** Saving the same name twice leaves the table as saving it once, with
      whatever id the database would have offered the second time. */
  lemma SaveTwiceSameAsOnce(db: Table, form: FormData.Form, freshId: string, freshId': string)
    requires WellFormed(db) && freshId != ""
    ensures var once := SaveAction(db, form, freshId, None).db;
            SaveAction(once, form, freshId', None).db == once
  {
    var once := SaveAction(db, form, freshId, None).db;
    if !NameMissing(form) {
      var name := FormData.Get(form, NAME_FIELD).value;
      var found := FindFirst(db);
      if found.Some? {
        var i := found.value;
        FindFirstIgnoresValues(db, once);
        assert once == db[i := db[i].(value := name)];
        assert once[i := once[i].(value := name)] == once;
      } else {
        var created := ContentRecord(freshId, STORE, THEME_ID, KEY, name);
        assert once == db + [created];
        var again := FindFirst(once);
        assert IsLabelRecord(once[|db|]);
        assert again == Some(|db|);
        assert once[|db| := once[|db|].(value := name)] == once;
      }
    }
  }

  /** Without the non-empty-id guarantee the rule breaks: a matching row with
      an empty id makes every save create another row. */
  lemma EmptyIdRowDefeatsIdempotence()
    ensures var db := [ContentRecord("", STORE, THEME_ID, KEY, "Buy")];
            var form := FormData.Set([], NAME_FIELD, "Add");
            var once := SaveAction(db, form, "c1", None).db;
            |once| == 2 && |SaveAction(once, form, "c2", None).db| == 3
  {
    var db := [ContentRecord("", STORE, THEME_ID, KEY, "Buy")];
    var form := FormData.Set([], NAME_FIELD, "Add");
    assert FormData.Get(form, NAME_FIELD) == Some("Add");
    var once := SaveAction(db, form, "c1", None).db;
    assert FindFirst(db) == Some(0);
    assert FindFirst(once) == Some(0);
  }

  /** The text the field's state turns into when `formData.set` stores it:
      the string itself, or `"undefined"` for the `undefined` state the page
      starts in after a loader error (`set` converts its value to a string). */
  function SubmittedText(text: Option<string>): (value: string)
    ensures text.Some? ==> value == text.value
    ensures text.None? ==> value == "undefined"
  {
    text.GetOr("undefined")
  }

  /** The page's `handleSubmit`: the form's own fields with the field's state
      set under `add-to-cart-name`, replacing whatever the field carried. */
  function PageSubmit(formFields: FormData.Form, text: Option<string>): (form: FormData.Form)
    ensures FormData.Get(form, NAME_FIELD) == Some(SubmittedText(text))
    ensures forall other :: other != NAME_FIELD ==> FormData.GetAll(form, other) == FormData.GetAll(formFields, other)
  {
    FormData.Set(formFields, NAME_FIELD, SubmittedText(text))
  }

  /** From the text field to the table: an empty string is refused with the
      required-name error; any other string is the value of the saved row;
      the `undefined` state is saved as the text `"undefined"`. */
  lemma TypedNameIsSaved(db: Table, formFields: FormData.Form, text: Option<string>, freshId: string)
    ensures var out := SaveAction(db, PageSubmit(formFields, text), freshId, None);
            (text == Some("") <==> out.response == ContentError(REQUIRED_MESSAGE, 400)) &&
            (text != Some("") ==> out.response.Saved? && out.response.record.value == SubmittedText(text))
  {
  }

  /** What the loader hands the page: the first label row's id and value, the
      default `{id: '', value: ''}`, or the caught error with status 500. */
  datatype LoaderData = Loaded(id: string, value: string) | LoaderError(error: string, status: int)

  function Loader(db: Table, failure: Option<string>): (r: LoaderData)
    ensures failure.Some? ==> r == LoaderError(failure.value, 500)
    ensures failure.None? ==> r.Loaded?
    ensures failure.None? && (forall j :: 0 <= j < |db| ==> !IsLabelRecord(db[j])) ==> r == Loaded("", "")
    ensures failure.None? && FindFirst(db).Some? ==>
            r == Loaded(db[FindFirst(db).value].id, db[FindFirst(db).value].value)
    ensures r.Loaded? && r.id != "" ==> exists j :: 0 <= j < |db| && IsLabelRecord(db[j]) && db[j].id == r.id && db[j].value == r.value
  {
    if failure.Some? then LoaderError(failure.value, 500)
    else match FindFirst(db)
      case Some(i) => Loaded(db[i].id, db[i].value)
      case None => Loaded("", "")
  }

  /** Round trip: after a successful save the loader reads back the saved
      row, so the page opens with the name just saved. */
  lemma SaveThenLoad(db: Table, form: FormData.Form, freshId: string)
    requires WellFormed(db) && freshId != ""
    requires !NameMissing(form)
    ensures var out := SaveAction(db, form, freshId, None);
            Loader(out.db, None) == Loaded(out.response.record.id, FormData.Get(form, NAME_FIELD).value) &&
            out.response.record.id != ""
  {
    var out := SaveAction(db, form, freshId, None);
    var found := FindFirst(db);
    if found.Some? {
      FindFirstIgnoresValues(db, out.db);
    } else {
      assert IsLabelRecord(out.db[|db|]);
      assert FindFirst(out.db) == Some(|db|);
    }
  }

  /** The text field's first value, `data.value`: undefined when the loader
      answered with an error. */
  function InitialText(data: LoaderData): (text: Option<string>)
    ensures data.Loaded? <==> text.Some?
    ensures text.Some? ==> text.value == data.value
  {
    match data
    case Loaded(_, value) => Some(value)
    case LoaderError(_, _) => None
  }

  /** After a loader error the field shows empty, yet saving it untouched is
      not refused: the label becomes `"undefined"` and the saved notice shows. */
  lemma UntouchedFieldAfterLoaderErrorSavesUndefined(db: Table, formFields: FormData.Form, error: string, freshId: string)
    requires WellFormed(db) && freshId != ""
    ensures var out := SaveAction(db, PageSubmit(formFields, InitialText(LoaderError(error, 500))), freshId, None);
            out.response.Saved? && out.response.record.value == "undefined" &&
            Loader(out.db, None).value == "undefined" &&
            SavedToasts(Some(out.response)) == [Toast(SAVED_MESSAGE, false)]
  {
    var form := PageSubmit(formFields, InitialText(LoaderError(error, 500)));
    SaveThenLoad(db, form, freshId);
  }

  /** The inline error: the response's non-empty `error`, cleared otherwise. */
  function ErrorField(data: Option<ContentResponse>): (e: Option<string>)
    ensures e.Some? <==> data.Some? && data.value.ContentError? && data.value.error != ""
    ensures e.Some? ==> e.value == data.value.error
  {
    match data
    case Some(ContentError(error, _)) => if error != "" then Some(error) else None
    case _ => None
  }

  /** The success notice fires when the response carries a non-empty id. */
  function SavedToasts(data: Option<ContentResponse>): (toasts: seq<Toast>)
    ensures |toasts| <= 1
    ensures |toasts| == 1 <==> data.Some? && data.value.Saved? && data.value.record.id != ""
    ensures forall t :: t in toasts ==> t == Toast(SAVED_MESSAGE, false)
  {
    match data
    case Some(Saved(record)) => if record.id != "" then [Toast(SAVED_MESSAGE, false)] else []
    case _ => []
  }

  /** An empty submission reaches the page as the required-name error next to
      the field, with no notice and no change to the table. */
  lemma EmptyNameShowsRequiredError(db: Table, form: FormData.Form, freshId: string, failure: Option<string>)
    requires NameMissing(form)
    ensures var out := SaveAction(db, form, freshId, failure);
            out.db == db &&
            ErrorField(Some(out.response)) == Some(REQUIRED_MESSAGE) &&
            SavedToasts(Some(out.response)) == []
  {
  }

  /** A successful save clears the inline error and shows the notice. */
  lemma SuccessfulSaveShowsNotice(db: Table, form: FormData.Form, freshId: string)
    requires WellFormed(db) && freshId != ""
    requires !NameMissing(form)
    ensures var out := SaveAction(db, form, freshId, None);
            ErrorField(Some(out.response)).None? &&
            SavedToasts(Some(out.response)) == [Toast(SAVED_MESSAGE, false)]
  {
    SaveThenLoad(db, form, freshId);
  }

  /** app.settings: the Save spinner shows only while submitting. */
  function SettingsSaveLoading(state: FetcherState): (loading: bool)
    ensures loading ==> IsBusy(state)
    ensures !loading <==> state == Idle || state == Loading
  {
    state == Submitting
  }

  /** app.additional: Submit is disabled unless the fetcher is idle, which is
      exactly when the field's spinner shows. */
  function AdditionalSubmitDisabled(state: FetcherState): (disabled: bool)
    ensures disabled <==> IsBusy(state)
  {
    state != Idle
  }
}
